=== FILE: README.md ===
# Hookify preview pipeline in Dafny

A model of the interactive core of Hookify, a React application for learning
React hooks. The user picks one of eight topics and edits a script and a
stylesheet for it. A live preview then strips the script's `import`
statements, rewrites its `export default`, hands it to Babel, and compiles and
calls it with `new Function`. It renders the `Example` component the script
defines, or shows the error the run threw.

The model covers:

- `ImportStripping`: the global, lazy replacement of `/import.*?;(\r?\n|\r)/g`,
  as a left-to-right scan. It is proved equal to a declarative reading of the
  regular expression.
- `ExportRewrite`: the non-global replacement of `/export\s+default\s+(\w+)/`
  by `const $1_export = $1`. The matcher is proved equal to a declarative
  reading of the pattern.
- `CodePreview`: one run of the preview effect and the commit of its outcome
  into the `(error, renderedOutput)` state. It also covers the choice of what
  the preview panel shows, and the `ErrorBoundary` latch. Babel and the
  compile-and-call step are parameters: pure functions that either return a
  value or throw one.
- `CodeContext`: the code store. It is a total map from the eight topics to a
  `{js, css}` pair, with `updateCode`, the active topic and file, and the
  missing-provider failure.
- `CodeEditor`: the editor's change handler, the language, the displayed value
  and the two file tabs.
- `PreviewSession`: the store, the editor and one mounted preview wired
  together. The effect re-runs whenever its dependencies `[code, activeHook]`
  change. The session also carries the `ErrorBoundary` around the output. A
  render throw latches it, and it is reset only when the error panel takes it
  out of the tree. The property the script is read through is a parameter:
  `.jsx`, as the code reads it, or `.js`. The lemmas that take the property
  as a parameter hold for both readings. `SessionAsWrittenAlwaysFails` and
  `AsWrittenBoundaryNeverLatches` are about `.jsx` only, and
  `FallbackOutlivesFix` is about `.js` only.
- `Workspace`: the dashboard with the preview in it. The layout decides
  whether `CodePreview` is mounted, and where. Leaving its place in the tree
  discards the instance, its state and its boundary, and a new instance runs
  once on mount. Only the inputs the current layout offers can happen.
- `Dashboard`: the layout state machine on `(isMobile, splitSizes)`.
- `JsText` and `Wrappers`: the JavaScript character classes, and
  `Option`/`Result`.

## Model

| member | source | states |
|---|---|---|
| ImportStripping.BreakLength | src/components/CodePreview.tsx:48 | The group `(\r?\n\|\r)` matches CR LF when it can, and otherwise a single LF or CR. It fails exactly when no line break is there. |
| ImportStripping.FindTerminator | src/components/CodePreview.tsx:48 | The lazy `.*?;(\r?\n\|\r)` stops at the first `;` followed by a line break. It gives up when a JavaScript line terminator comes first. |
| ImportStripping.MatchAt | src/components/CodePreview.tsx:47-50 | The matcher finds a match at a position exactly when the pattern matches there. The match ends where the pattern's match ends, and it is nonempty. |
| ImportStripping.MatchIsImportStatement | src/components/CodePreview.tsx:48 | Every match is `import`, then text without line terminators, then `;` and one line break. |
| ImportStripping.ScanCoversInput | src/components/CodePreview.tsx:47-50 | A scan accounts for every character in order: the removed segments are disjoint and everything else is kept. |
| ImportStripping.ScanRemovesStatements | src/components/CodePreview.tsx:47-50 | Every segment a scan removes is an import statement of that shape. |
| ImportStripping.ScanExists | src/components/CodePreview.tsx:47-50 | Every input has a scan under the regular-expression semantics. |
| ImportStripping.StripKeepsScanText | src/components/CodePreview.tsx:47-50 | The stripping function returns exactly the kept characters of any scan. |
| ImportStripping.StripImportsDecomposition | src/components/CodePreview.tsx:47-50 | The input splits into kept characters and removed import statements, in order. The result is the kept characters. |
| ImportStripping.StripFrom | src/components/CodePreview.tsx:47-50 | Scanning from a position never yields more text than is left after it. |
| ImportStripping.StripImports | src/components/CodePreview.tsx:47-50 | Stripping never lengthens the script. What it keeps and removes is `ImportStripping.StripImportsDecomposition`. |
| ImportStripping.StripFromWithoutMatch | src/components/CodePreview.tsx:47-50 | Where the pattern matches nowhere, the scan keeps the text as it is. |
| ImportStripping.StripImportsWithoutKeyword | src/components/CodePreview.tsx:48 | Text without `import` is unchanged. |
| ImportStripping.StripImportsWithoutTerminatedSemicolon | src/components/CodePreview.tsx:48 | Text in which no `;` is directly followed by a line break is unchanged. |
| ImportStripping.MatchEndsWithBreak | src/components/CodePreview.tsx:48 | Every match ends with the line break its final group matched. |
| ImportStripping.StripKeepsLastLine | src/components/CodePreview.tsx:47-50 | A last line that holds no line terminator comes through stripping intact, whatever precedes it. So an `import` on the last line without a newline after its `;` is never removed. |
| ImportStripping.StripKeepsChar | src/components/CodePreview.tsx:47-50 | Where the pattern does not match, the scan keeps that one character and goes on from the next. |
| ImportStripping.StripKeepsRun | src/components/CodePreview.tsx:47-50 | A stretch without matches is copied through unchanged. |
| ImportStripping.StripImportsNotIdempotent | src/components/CodePreview.tsx:47-50 | Removing a statement can splice a new one together. `impimport x;\nort y;\n` strips to `import y;\n`, which strips to the empty text. |
| ExportRewrite.RunEnd | src/components/CodePreview.tsx:54 | A greedy `\s+` or `\w+` run ends at the first character outside the class. |
| ExportRewrite.MatchExportAt | src/components/CodePreview.tsx:54 | A match captures a nonempty word that starts after the match position and ends within the text. |
| ExportRewrite.MatchExportAtCorrect | src/components/CodePreview.tsx:54 | The matcher finds a match at a position exactly when `export\s+default\s+(\w+)` matches there. The captured word is maximal. |
| ExportRewrite.FindExport | src/components/CodePreview.tsx:53-56 | The search finds the leftmost match, with no match before it. Nothing is found only when no position matches. |
| ExportRewrite.RewriteExport | src/components/CodePreview.tsx:53-56 | When the search finds no match, the text is returned unchanged. The replacement of the first match is `ExportRewrite.RewriteExportAtFirstMatch`. |
| ExportRewrite.RewriteExportAtFirstMatch | src/components/CodePreview.tsx:53-56 | Only the first match is replaced, by `const <word>_export = <word>`. The text before and after it is kept. |
| ExportRewrite.RewriteExportWithoutMatch | src/components/CodePreview.tsx:53-56 | Text with no match is unchanged. |
| CodePreview.CapabilitiesDistinct | src/components/CodePreview.tsx:62-73 | The compiled function has eleven distinct parameter names: `React` and ten of its exports (the hooks and `createContext`). The list is the same constant for every topic, so no parameter carries the active topic. That the outcome does not depend on the topic is `CodePreview.RunReadsOnlyScript`. |
| CodePreview.FunctionBody | src/components/CodePreview.tsx:74-75 | The body is the transformed code, unchanged, followed by the resolution of `Example`. |
| CodePreview.Property | src/components/CodePreview.tsx:47 | `js` and `css` read the pair's files. `jsx`, which neither the pair nor `Object.prototype` has, reads `undefined`. |
| CodePreview.Attempt | src/components/CodePreview.tsx:47-91 | Reading `undefined` throws on `.replace`. A Babel throw is rethrown unchanged. When Babel succeeds, the code is compiled and called with the transformed text (`""` for `null`) followed by the resolution of `Example`. A throw there is the outcome. Otherwise the outcome is `createElement(Example)` when `Example` is a function, and `null` when it is not. |
| CodePreview.Diagnostic | src/components/CodePreview.tsx:96 | An `Error` is reported by its message, and any other value by its string form. |
| CodePreview.Normalize | src/components/CodePreview.tsx:47-56 | Imports are stripped first, and the export rewrite sees only the stripped text. Without an export match, Babel receives the stripped text. |
| CodePreview.NormalizeKeepsPlainScript | src/components/CodePreview.tsx:47-56 | A script with no `import` and no `export default <word>` reaches Babel unchanged. |
| CodePreview.ScriptReadIgnoresStylesheet | src/components/CodePreview.tsx:47 | Whether the script is read through `.jsx` or through `.js`, the stylesheet never affects what is read. |
| CodePreview.RunForgetsPrevious | src/components/CodePreview.tsx:43-98 | Two runs over the same pair from different earlier states end in the same state, whatever property is read. |
| CodePreview.Commit | src/components/CodePreview.tsx:43-98 | A completed run leaves no error and its own result. A throw leaves its message and no output. Nothing of the earlier state survives. |
| CodePreview.RunPipeline | src/components/CodePreview.tsx:42-98 | An error and an output never coexist after a run. |
| CodePreview.CompletedRun | src/components/CodePreview.tsx:75-93 | When every stage completes, the error is cleared. The output is `createElement(Example)` exactly when `Example` is a function, and `null` otherwise, which is not an error. |
| CodePreview.ThrowingRun | src/components/CodePreview.tsx:94-97 | A throw from Babel, or from compiling or running the code, leaves the thrown message and no output, whatever the earlier state. |
| CodePreview.RunReadsOnlyScript | src/components/CodePreview.tsx:47-75 | Under either reading of line 47, the outcome depends only on the active script. It is the same for every topic, stylesheet and earlier state. |
| CodePreview.RunPipelineAsWritten | src/components/CodePreview.tsx:47 | As written, every run ends with the `undefined.replace` error and no output. |
| CodePreview.IntendedRunRenders | src/components/CodePreview.tsx:47-93 | Reading `.js`, a run whose `Example` is a function renders it, where the run as written shows an error. |
| CodePreview.SelectView | src/components/CodePreview.tsx:110-119 | The error panel is shown exactly when the error is truthy. Otherwise the active stylesheet is shown, and the error boundary is given the output, or the placeholder when there is none. What the boundary then shows is `CodePreview.Display`. |
| CodePreview.ViewAfterRun | src/components/CodePreview.tsx:110-119 | After a run that threw a non-empty message, only the error panel is shown. After a completed run, the stylesheet is shown. |
| CodePreview.EmptyMessageShowsPlaceholder | src/components/CodePreview.tsx:96-110 | A thrown empty message is falsy, so the placeholder is shown rather than the error panel. |
| CodePreview.DerivedStateFromError | src/components/CodePreview.tsx:16-18 | After a descendant throws, the boundary has an error, and it is the thrown one. |
| CodePreview.BoundaryStep | src/components/CodePreview.tsx:13-18 | A throw sets the error state. A re-render changes nothing. |
| CodePreview.BoundaryLatches | src/components/CodePreview.tsx:13-18 | `hasError` holds after a sequence of events exactly when it held before or some descendant threw. Nothing resets it. |
| CodePreview.FallbackMessage | src/components/CodePreview.tsx:26 | Without an error, nothing is shown. An `Error` shows its message. Another thrown value shows its own `message` property, which may be missing. |
| CodePreview.BoundaryRender | src/components/CodePreview.tsx:20-31 | The boundary shows the fallback with the error's message exactly while `hasError` holds. Otherwise it shows its children. |
| CodePreview.SettleBoundary | src/components/CodePreview.tsx:109-117 | While the error panel is shown, the boundary is out of the tree, and the one that comes back starts without an error. Otherwise the boundary is kept. |
| CodePreview.RenderThrows | src/components/CodePreview.tsx:16-18 | A throw while rendering latches the boundary with the thrown value exactly when the boundary is in the tree, renders its children, and has an element among them. Otherwise nothing changes. |
| CodePreview.Display | src/components/CodePreview.tsx:20-119 | The card shows the error panel with the error exactly when the error is truthy. Otherwise it shows the active stylesheet, and the boundary's fallback with its error's message exactly while the boundary is latched. An unlatched boundary shows the output or the placeholder. |
| CodePreview.BoundaryNeverRecovers | src/components/CodePreview.tsx:13-31 | Once a descendant has thrown, the children are never rendered again. |
| JsText.IsLineTerminator | src/components/CodePreview.tsx:48 | The characters `.` does not match without the `s` flag are LF, CR, U+2028 and U+2029. Each of them is also in `\s`. |
| JsText.IsWordChar | src/components/CodePreview.tsx:54 | `\w` is `[A-Za-z0-9_]`, and no word character is a line terminator. |
| JsText.WordCharIsNotSpace | src/components/CodePreview.tsx:54 | `\w` and `\s` are disjoint, so the `\s+` runs and the captured word cannot overlap. |
| CodeContext.TopicsEnumerated | src/contexts/CodeContext.tsx:3-11 | There are exactly eight topics, and their names are distinct. |
| CodeContext.InitialContext | src/contexts/CodeContext.tsx:30-72 | Every topic starts with the starter script and an empty stylesheet. The initial topic is `useState` and the initial file is `js`. |
| CodeContext.Files.Set | src/contexts/CodeContext.tsx:77-80 | Writing one file of a pair sets that file and keeps the other. |
| CodeContext.UpdateCode | src/contexts/CodeContext.tsx:74-82 | Exactly the named cell changes: the other file, the other topics and the active topic and file stay. The store becomes a new object. |
| CodeContext.SetActiveHook | src/contexts/CodeContext.tsx:71-90 | Only the active topic changes, and the store keeps its identity. |
| CodeContext.SetActiveFile | src/contexts/CodeContext.tsx:72-91 | Only the active file changes, and the store keeps its identity. |
| CodeContext.UpdateAllLastWriteWins | src/contexts/CodeContext.tsx:75 | Each update applies to the latest store. After a sequence of them, every cell holds its last write, or its earlier text when nothing wrote it. |
| CodeContext.UpdateAllSplit | src/contexts/CodeContext.tsx:75 | Applying a sequence of updates and then one more is the same as applying the longer sequence. |
| CodeContext.UseCodeContext | src/contexts/CodeContext.tsx:100-105 | The hook returns the provider's value when there is one. Otherwise it fails with the missing-provider message. |
| CodeEditor.DisplayedValue | src/components/CodeEditor.tsx:54 | The widget shows the active topic's buffer of the file whose tab is highlighted. |
| CodeEditor.ClickTabShowsBuffer | src/components/CodeEditor.tsx:27-54 | Switching tabs shows the selected file's buffer as it was left. Switching back shows the first buffer again, so a tab switch loses no edit. |
| CodeEditor.Language | src/components/CodeEditor.tsx:51-52 | The language is `javascript` for the script and `css` for the stylesheet. |
| CodeEditor.HandleEditorChange | src/components/CodeEditor.tsx:12-54 | An `undefined` value changes nothing. A defined value becomes the active cell, so the editor shows what was typed, and nothing else in the store changes. |
| CodeEditor.TabFor | src/components/CodeEditor.tsx:21-46 | Each tab is labelled `<activeHook>.<file>`, is highlighted exactly when its file is active, and selects its file. |
| CodeEditor.Tabs | src/components/CodeEditor.tsx:21-46 | There are two tabs, for the script and then the stylesheet. A tab is highlighted exactly when its file is active, so exactly one is. Their captions differ. |
| CodeEditor.ClickTab | src/components/CodeEditor.tsx:27-40 | Clicking a tab selects its file and nothing else. The clicked tab is then the only highlighted one. |
| PreviewSession.Apply | src/components/CodeEditor.tsx:12-54 | A defined edit becomes the text the editor shows, and keeps the active topic and file. A topic or file switch changes only that choice and keeps the store's identity. An `undefined` edit and a render throw leave the store alone. |
| PreviewSession.ScreenOf | src/components/CodePreview.tsx:109-119 | The card shows the error panel exactly when the error is truthy. Otherwise it injects the active topic's stylesheet, and shows the fallback exactly while the boundary is latched. |
| PreviewSession.EffectFires | src/components/CodePreview.tsx:99 | The effect fires exactly when `code` is a new object or the topic differs. |
| PreviewSession.Run | src/components/CodePreview.tsx:42-99 | A run over the active topic's pair, through either property, ends where a run from the initial state ends. |
| PreviewSession.Step | src/components/CodePreview.tsx:99 | After an event, the pipeline runs over the new store exactly when a dependency changed. Otherwise the preview state is kept. A render throw goes to the boundary. After any other event the boundary is settled against the new state, so the error panel resets it. |
| PreviewSession.Mount | src/components/CodePreview.tsx:35-99 | On mount the store is the provider's initial one and the effect runs once, from `(null, null)`. The boundary starts without an error. |
| PreviewSession.EventFires | src/components/CodePreview.tsx:99 | A defined edit always re-runs the pipeline, and an `undefined` one never does. A topic switch re-runs it exactly when the topic changes, and a file switch never does. |
| PreviewSession.StepKeepsFresh | src/components/CodePreview.tsx:42-99 | One event keeps the `(error, renderedOutput)` state equal to a fresh run over the current store. |
| PreviewSession.PreviewAlwaysFresh | src/components/CodePreview.tsx:42-99 | After any sequence of events, the `(error, renderedOutput)` state is what one fresh run over the current store gives, under either reading. No earlier outcome survives in that state. The boundary can keep an earlier fallback: `PreviewSession.FallbackSurvivesRuns`. |
| PreviewSession.SessionPreviewIsFresh | src/components/CodePreview.tsx:42-99 | From mounting on, the `(error, renderedOutput)` state is always a fresh run over the current store. |
| PreviewSession.SessionAsWrittenAlwaysFails | src/components/CodePreview.tsx:47-99 | Reading `.jsx`, the mounted preview shows the `undefined.replace` error and no output after every sequence of events. |
| PreviewSession.EveryEditRuns | src/components/CodePreview.tsx:99 | There is no debouncing: a sequence of defined edits runs the pipeline once per edit. |
| PreviewSession.StylesheetEditReruns | src/components/CodePreview.tsx:99-117 | Editing the stylesheet re-runs the pipeline, which gives the same outcome as before, up to the identity of `Example`. |
| PreviewSession.TopicSwitchRerunsFresh | src/components/CodePreview.tsx:99 | Switching topic replaces the `(error, renderedOutput)` state with a fresh run over that topic's script. A latched boundary stays latched exactly when that run does not show the error panel. |
| PreviewSession.BoundaryAcrossStep | src/components/CodePreview.tsx:16-119 | Apart from a render throw, an event leaves the boundary latched exactly when it was latched and the error panel is not shown afterwards. |
| PreviewSession.FallbackSurvivesRuns | src/components/CodePreview.tsx:16-119 | A latched boundary outlives every event other than a render throw after which the error panel is not shown. The card keeps showing the old fallback, whatever a new run rendered. |
| PreviewSession.FallbackOutlivesFix | src/components/CodePreview.tsx:16-119 | Reading `.js`, after a render throw has latched the boundary, typing a script that defines `Example` gives a run that renders it. The card still shows the old fallback. |
| PreviewSession.ErrorPanelResetsBoundary | src/components/CodePreview.tsx:109-117 | An event whose run shows the error panel discards the latched boundary. The card shows the error panel, and the next boundary starts without an error. |
| PreviewSession.LatchNeedsRenderThrow | src/components/CodePreview.tsx:16-18 | From an unlatched boundary, a latched one after a sequence of events means one of the events was a render throw. |
| PreviewSession.AsWrittenBoundaryNeverLatches | src/components/CodePreview.tsx:47-119 | Reading `.jsx`, nothing is ever rendered, so the boundary never latches, and the card shows the `undefined.replace` error after every sequence of events. |
| PreviewSession.PanelOf | src/components/CodePreview.tsx:117 | The stylesheet the panel injects is the active topic's. |
| Workspace.SlotOf | src/components/Dashboard.tsx:58-127 | The preview is not in the tree exactly when the mobile editor is shown. It is in the mobile pane when the mobile preview is shown, and in the split on a wide window. |
| Workspace.Available | src/components/Dashboard.tsx:58-127 | A drag can happen exactly when the split is shown, and the mobile buttons exactly when it is not. A resize can always happen. A store event can happen when `Workspace.EventAvailable` allows it. |
| Workspace.EventAvailable | src/components/Dashboard.tsx:84-127 | An edit or a file switch can happen exactly when the editor is in the tree, a render throw exactly when the preview is, and a topic switch always. |
| Workspace.NextLayout | src/components/Dashboard.tsx:13-73 | Store events leave the layout alone, and so do controls the current layout does not show: the split on mobile and the buttons on a wide window. |
| Workspace.RunsPipeline | src/components/Dashboard.tsx:84-127 | The pipeline runs only for an input the layout offers, and only when a preview instance is in the tree afterwards. While the mobile editor is shown, no store event runs it. |
| Workspace.WorkspaceStep | src/components/Dashboard.tsx:58-127 | An input the layout does not offer changes nothing. Leaving the preview's place discards its state and boundary. A new place mounts an instance that runs from the initial state with a new boundary. A kept instance runs when its dependencies changed, and otherwise keeps its state. |
| Workspace.Open | src/components/Dashboard.tsx:9-10 | On opening, a preview instance exists exactly on a wide window, and it holds one fresh run over the initial store. |
| Workspace.StepKeepsConsistent | src/components/Dashboard.tsx:58-127 | After any input, an instance exists exactly while the layout shows one, and it holds a fresh run over the current store. No boundary is latched while no instance, or the error panel, is shown. |
| Workspace.WorkspaceStaysConsistent | src/components/Dashboard.tsx:58-127 | The same holds after any sequence of edits, topic switches, resizes, drags and button presses. |
| Workspace.HiddenEditsNeverRun | src/components/Dashboard.tsx:84-95 | While the mobile editor is shown, store events never run the pipeline or change the layout. After any edit, topic switch or file switch, no instance is left. A render throw cannot happen there and changes nothing. |
| Workspace.ShownEditRuns | src/components/Dashboard.tsx:99-127 | In the split, where the editor and the preview are both shown, every defined edit runs the pipeline on the kept instance. |
| Workspace.MobilePaneHasNoEditor | src/components/Dashboard.tsx:84-95 | The mobile preview pane has no editor. Edits and file switches cannot happen there and change nothing. |
| Workspace.FallbackSurvivesInSplit | src/components/Dashboard.tsx:99-127 | In the split, a latched boundary outlives every edit and topic switch whose run does not show the error panel, since the instance is kept. |
| Workspace.PreviewButtonMounts | src/components/Dashboard.tsx:73-95 | On mobile with the editor shown, the Preview button mounts an instance, which runs once although the store did not change. Its boundary starts without an error. |
| Workspace.ResizeRemounts | src/components/Dashboard.tsx:13-98 | A resize to a mobile width discards the instance and its boundary, latched or not. A resize from mobile to a wide window mounts one in the split, which runs once and starts with an unlatched boundary. |
| Workspace.DragKeepsInstance | src/components/Dashboard.tsx:27-29 | On a wide window a drag keeps the instance and does not run the pipeline. |
| Dashboard.InitialLayout | src/components/Dashboard.tsx:9-10 | The window is mobile exactly below 768 pixels. The sizes start at `[100, 0]` on mobile and `[50, 50]` otherwise. |
| Dashboard.HandleResize | src/components/Dashboard.tsx:13-21 | The width decides `isMobile`. On mobile without the editor full-width the sizes become `[100, 0]`. On desktop with it full-width they become `[50, 50]`. Otherwise they are kept. Afterwards the editor fills the width exactly on mobile. |
| Dashboard.HandleDragEnd | src/components/Dashboard.tsx:27-29 | A drag replaces the sizes verbatim. |
| Dashboard.PressEditor | src/components/Dashboard.tsx:63 | The Editor button sets `[100, 0]`. |
| Dashboard.PressPreview | src/components/Dashboard.tsx:73 | The Preview button sets `[0, 100]`. |
| Dashboard.ChooseView | src/components/Dashboard.tsx:58-98 | On mobile, the editor is shown exactly when the first size is 100, and the preview otherwise. Each button is highlighted by its own test. On desktop, both panes are shown at the current sizes. |
| Dashboard.MobileButtonsSwitchPanes | src/components/Dashboard.tsx:62-95 | On mobile, each button shows its own pane and highlights itself only. |
| Dashboard.ResizeShowsEditorOnMobile | src/components/Dashboard.tsx:13-85 | After a resize to a mobile width the editor is shown. After a resize to a wide window the split panes are shown. |
| Dashboard.ResizesKeepLayoutConsistent | src/components/Dashboard.tsx:13-21 | After resizes, `isMobile` follows the last width and holds exactly when the editor fills the width. The sizes are either the sizes before the resizes, or `[100, 0]`, or `[50, 50]`. |

## Left out

- PreviewSession.StylesheetEditReruns: `evaluate` is a function of the text, so a re-run of the same script yields the same `Example`. The code calls `new Function` on every run (src/components/CodePreview.tsx:62-91), so each run defines a new `Example` closure and `createElement` gets a new component type. React then unmounts the old example and mounts a new one, which resets its hook state on every edit, even one that changes only the stylesheet. Component identity and the example's own state are not modelled.
- Babel (src/components/CodePreview.tsx:58-59) is foreign code. It is the `transform` parameter: a function from text to transformed text, `null`, or a thrown value.
- `new Function` and the call with the React exports (src/components/CodePreview.tsx:62-91) are dynamic evaluation of foreign code. They are the `evaluate` parameter, which returns what `Example` holds or a thrown value. Only the parameter list and the appended body text are modelled.
- React scheduling, batching and re-rendering are not modelled: every state setter is a sequential assignment. Whether `code` changed is tracked by a revision number that every `updateCode` bumps. This stands for the identity of the new object.
- The `console.error` call (src/components/CodePreview.tsx:95) is I/O.
- The documentation panel and its "Explain Like I'm 5" toggles (src/components/CodePreview.tsx:151-597) are static text and direct DOM mutation.
- CodeBlock, TabNavigation and App are not part of this model. A topic tab click appears only as the `SelectTopic` event.
- The Monaco editor options, react-split's gutter and snapping, and the registration of the resize listener are configuration, a foreign widget and I/O.
- Dashboard.HandleResize: split sizes are integers rather than floating-point percentages. The sizes are only ever compared with 0 and 100, so nothing depends on the difference.
- Text is a sequence of characters, not of UTF-16 code units. The line terminators and the `\s` class are listed by code point, so no case depends on surrogate pairs.
- CodePreview.Diagnostic: `String(err)` of a non-`Error` value is given as the value's text. It is not computed, and a throwing `toString` is not modelled.
- CodePreview.Attempt: the text V8 gives for `undefined.replace` is taken as a constant. Other engines word it differently.
- CodePreview.BoundaryLatches: the latch is stated for one mounted boundary. The session and the workspace carry the boundary, and treat one that leaves the tree as gone: a boundary that comes back is a new one without an error.
- CodePreview.RenderThrows: what the rendered component does while React renders it (its hooks, effects and event handlers) is foreign code. A throw during rendering is the `RenderThrow` event carrying the thrown value.
- CodePreview.Property: names `Object.prototype` gives every object, such as `toString`, are not modelled. Only `js`, `css` and `jsx` are read, and the script is read through `jsx` or `js`.
- A topic-specific entry symbol per topic is not modelled. The code resolves only `Example` for every topic, and no topic name reaches the compiled function.

## Findings

| source | as written | input that shows it | evidently intended | confidence | as-written member | corrected member |
|---|---|---|---|---|---|---|
| src/components/CodePreview.tsx:47 | The script is read as `code[activeHook].jsx`. The store's pairs have only `js` and `css`, so this reads `undefined` and `.replace` throws. | Any stored script, for example `const Example = () => null;` under any topic: the preview always shows "Cannot read properties of undefined (reading 'replace')". | Read `code[activeHook].js`, the script the editor writes. | not executed | CodePreview.RunPipelineAsWritten | CodePreview.IntendedRunRenders |

`PreviewSession` and `Workspace` take the property as a parameter, and the lemmas that take it as a parameter hold for both readings. `PreviewSession.SessionAsWrittenAlwaysFails` shows the whole session as written: the preview never shows anything but the error.

Under the `.js` reading, `PreviewSession.FallbackOutlivesFix` shows a further behaviour: once a render throw has latched the error boundary, a fixed script renders in the `(error, renderedOutput)` state, but the card keeps the old fallback until the error panel or a remount replaces the boundary. The code gives the boundary no key or reset, and no intended recovery is evident from it, so this is stated as behaviour and not listed as a finding.

=== FILE: code_context.dfy ===
/** The code store shared by the editor and the preview
    (src/contexts/CodeContext.tsx): one `{js, css}` pair per topic, the active
    topic and the active file, and the single update entry point `updateCode`.
    React state setters are modelled as sequential assignments. */
module CodeContext {
  import opened Wrappers

  /** `HookType`: the eight teaching topics. */
  datatype Topic =
    | UseState | UseEffect | UseContext | UseReducer
    | UseRef | UseMemoCallback | UseTransition | CustomHook

  /** The identifier the source uses for each topic. */
  function TopicName(t: Topic): string {
    match t
    case UseState => "useState"
    case UseEffect => "useEffect"
    case UseContext => "useContext"
    case UseReducer => "useReducer"
    case UseRef => "useRef"
    case UseMemoCallback => "useMemoCallback"
    case UseTransition => "useTransition"
    case CustomHook => "customHook"
  }

  const AllTopics: set<Topic> :=
    {UseState, UseEffect, UseContext, UseReducer, UseRef, UseMemoCallback, UseTransition, CustomHook}

  /** Every topic is one of the eight listed. */
  lemma InAllTopics(t: Topic)
    ensures t in AllTopics
  {
    match t
    case UseState =>
    case UseEffect =>
    case UseContext =>
    case UseReducer =>
    case UseRef =>
    case UseMemoCallback =>
    case UseTransition =>
    case CustomHook =>
  }

  /** The topics are eight, with distinct names. */
  lemma TopicsEnumerated()
    ensures forall t: Topic :: t in AllTopics
    ensures |AllTopics| == 8
    ensures forall t, u :: TopicName(t) == TopicName(u) ==> t == u
  {
    forall t: Topic
      ensures t in AllTopics
    {
      InAllTopics(t);
    }
  }

  /** `FileType`. */
  datatype FileKind = Js | Css

  function FileName(f: FileKind): string {
    match f
    case Js => "js"
    case Css => "css"
  }

  /** The other file of the same topic. */
  function Other(f: FileKind): FileKind {
    match f
    case Js => Css
    case Css => Js
  }

  /** The stored pair of one topic. */
  datatype Files = Files(js: string, css: string) {

    function Get(f: FileKind): string {
      match f
      case Js => js
      case Css => css
    }

    /** `{...files, [f]: text}`. */
    function Set(f: FileKind, text: string): (r: Files)
      ensures r.Get(f) == text
      ensures r.Get(Other(f)) == Get(Other(f))
    {
      match f
      case Js => this.(js := text)
      case Css => this.(css := text)
    }
  }

  /** The store `code`: a map from every topic to its pair of files. */
  type CodeState = m: map<Topic, Files> | m.Keys == AllTopics witness DefaultCode

  /** `code[h]`. */
  function Entry(code: CodeState, h: Topic): Files {
    InAllTopics(h);
    code[h]
  }

  const StarterScript: string := "/* Add your code here */"

  /** `defaultCode`: every topic starts with the starter script and an empty stylesheet. */
  const DefaultCode: map<Topic, Files> := map t: Topic | t in AllTopics :: Files(StarterScript, "")

  /** The state the provider holds. `revision` stands for the identity of the
      `code` object: every `updateCode` makes a new object, so effects that
      depend on `code` see a change even when no text changed. */
  datatype Context = Context(code: CodeState, revision: nat, activeHook: Topic, activeFile: FileKind) {

    /** `code[h][f]`. */
    function Cell(h: Topic, f: FileKind): string {
      Entry(code, h).Get(f)
    }
  }

  /** The provider's state on mount. */
  function InitialContext(): (ctx: Context)
    ensures forall h: Topic :: Entry(ctx.code, h) == Files(StarterScript, "")
    ensures ctx.activeHook == UseState && ctx.activeFile == Js
  {
    Context(DefaultCode, 0, UseState, Js)
  }

  /** `updateCode(hook, file, newCode)`: replaces exactly one cell of the latest
      store; the other file of that topic, every other topic, the key set and
      the active topic and file are unchanged. */
  function UpdateCode(ctx: Context, hook: Topic, file: FileKind, newCode: string): (r: Context)
    ensures r.Cell(hook, file) == newCode
    ensures r.Cell(hook, Other(file)) == ctx.Cell(hook, Other(file))
    ensures forall t :: t != hook ==> Entry(r.code, t) == Entry(ctx.code, t)
    ensures r.activeHook == ctx.activeHook && r.activeFile == ctx.activeFile
    ensures r.revision != ctx.revision
  {
    var updated := ctx.code[hook := Entry(ctx.code, hook).Set(file, newCode)];
    InAllTopics(hook);
    ctx.(code := updated, revision := ctx.revision + 1)
  }

  /** `setActiveHook`. */
  function SetActiveHook(ctx: Context, hook: Topic): (r: Context)
    ensures r.activeHook == hook
    ensures r.code == ctx.code && r.revision == ctx.revision && r.activeFile == ctx.activeFile
  {
    ctx.(activeHook := hook)
  }

  /** `setActiveFile`. */
  function SetActiveFile(ctx: Context, file: FileKind): (r: Context)
    ensures r.activeFile == file
    ensures r.code == ctx.code && r.revision == ctx.revision && r.activeHook == ctx.activeHook
  {
    ctx.(activeFile := file)
  }

  /** Two writes to the same cell: the second wins. */
  lemma LastWriteWins(ctx: Context, hook: Topic, file: FileKind, first: string, second: string)
    ensures UpdateCode(UpdateCode(ctx, hook, file, first), hook, file, second).code
         == UpdateCode(ctx, hook, file, second).code
  {
  }

  /** A write at a time. */
  datatype Write = Write(hook: Topic, file: FileKind, text: string)

  /** The updates applied in order, each to the latest store. */
  function UpdateAll(ctx: Context, writes: seq<Write>): Context
    decreases |writes|
  {
    if |writes| == 0 then ctx
    else UpdateAll(UpdateCode(ctx, writes[0].hook, writes[0].file, writes[0].text), writes[1..])
  }

  /** The last write to a cell in a sequence of updates, if any. */
  function LastWrite(writes: seq<Write>, hook: Topic, file: FileKind): Option<string>
    decreases |writes|
  {
    if |writes| == 0 then None
    else
      var w := writes[|writes| - 1];
      if w.hook == hook && w.file == file then Some(w.text)
      else LastWrite(writes[..|writes| - 1], hook, file)
  }

  /** After a sequence of updates, every cell holds the text of the last write
      to it, or its earlier text when nothing wrote to it. */
  lemma {:induction false} UpdateAllLastWriteWins(ctx: Context, writes: seq<Write>, hook: Topic, file: FileKind)
    ensures UpdateAll(ctx, writes).Cell(hook, file) == LastWrite(writes, hook, file).GetOr(ctx.Cell(hook, file))
    ensures UpdateAll(ctx, writes).activeHook == ctx.activeHook
    ensures UpdateAll(ctx, writes).activeFile == ctx.activeFile
    decreases |writes|
  {
    if |writes| > 0 {
      var init := writes[..|writes| - 1];
      var w := writes[|writes| - 1];
      assert writes == init + [w];
      UpdateAllSplit(ctx, init, w);
      UpdateAllLastWriteWins(ctx, init, hook, file);
      UpdateCodeCell(UpdateAll(ctx, init), w, hook, file);
    }
  }

  /** What one write leaves in any cell. */
  lemma UpdateCodeCell(ctx: Context, w: Write, hook: Topic, file: FileKind)
    ensures UpdateCode(ctx, w.hook, w.file, w.text).Cell(hook, file)
         == if w.hook == hook && w.file == file then w.text else ctx.Cell(hook, file)
  {
    if w.hook == hook && w.file != file {
      assert file == Other(w.file);
    }
  }

  /** Applying a sequence of updates and then one more is applying the longer sequence. */
  lemma {:induction false} UpdateAllSplit(ctx: Context, init: seq<Write>, w: Write)
    ensures UpdateAll(ctx, init + [w]) == UpdateCode(UpdateAll(ctx, init), w.hook, w.file, w.text)
    decreases |init|
  {
    if |init| == 0 {
      assert init + [w] == [w];
    } else {
      assert (init + [w])[1..] == init[1..] + [w];
      UpdateAllSplit(UpdateCode(ctx, init[0].hook, init[0].file, init[0].text), init[1..], w);
    }
  }

  /** The error `useCodeContext` throws outside a provider. */
  const MissingProviderMessage: string := "useCodeContext must be used within a CodeProvider"

  /** `useCodeContext()`: the provider's value, or the error when there is none. */
  function UseCodeContext(provided: Option<Context>): (r: Result<Context, string>)
    ensures r.Success? <==> provided.Some?
    ensures r.Success? ==> r.value == provided.value
    ensures r.Failure? ==> r.error == MissingProviderMessage
  {
    match provided
    case None => Failure(MissingProviderMessage)
    case Some(ctx) => Success(ctx)
  }
}

=== FILE: code_editor.dfy ===
/** The editor adapter (src/components/CodeEditor.tsx): the two file tabs, the
    language and value handed to the editor widget, and the change handler
    that writes edits back into the code store. The widget itself is left out;
    it is represented by the values it is given and the events it reports. */
module CodeEditor {
  import opened Wrappers
  import opened CodeContext

  /** The language the widget highlights the active file with. */
  function Language(f: FileKind): (lang: string)
    ensures f == Js ==> lang == "javascript"
    ensures f == Css ==> lang == "css"
  {
    if f == Js then "javascript" else "css"
  }

  /** The text the widget shows: `code[activeHook][activeFile]`, the buffer of
      the file whose tab is highlighted, in the active topic. */
  function DisplayedValue(ctx: Context): (v: string)
    ensures forall f :: TabFor(ctx, f).highlighted ==> v == Entry(ctx.code, ctx.activeHook).Get(f)
  {
    ctx.Cell(ctx.activeHook, ctx.activeFile)
  }

  /** `handleEditorChange(value)`: an `undefined` value changes nothing; a
      defined value becomes the text of exactly the active cell, so the widget
      then shows what was typed, and nothing else in the store changes. */
  function HandleEditorChange(ctx: Context, value: Option<string>): (r: Context)
    ensures value.None? ==> r == ctx
    ensures value.Some? ==> DisplayedValue(r) == value.value
    ensures value.Some? ==> r.Cell(ctx.activeHook, Other(ctx.activeFile)) == ctx.Cell(ctx.activeHook, Other(ctx.activeFile))
    ensures value.Some? ==> forall t :: t != ctx.activeHook ==> Entry(r.code, t) == Entry(ctx.code, t)
    ensures r.activeHook == ctx.activeHook && r.activeFile == ctx.activeFile
  {
    match value
    case None => ctx
    case Some(text) => UpdateCode(ctx, ctx.activeHook, ctx.activeFile, text)
  }

  /** A file tab: its caption, whether it is highlighted as the active file, and
      the file its click selects. */
  datatype Tab = Tab(caption: string, highlighted: bool, selects: FileKind)

  /** The tab for file `f`: labelled `<activeHook>.<file>` and highlighted
      exactly when `f` is the active file. */
  function TabFor(ctx: Context, f: FileKind): (tab: Tab)
    ensures tab.caption == TopicName(ctx.activeHook) + "." + FileName(f)
    ensures tab.highlighted <==> ctx.activeFile == f
    ensures tab.selects == f
  {
    Tab(TopicName(ctx.activeHook) + "." + FileName(f), ctx.activeFile == f, f)
  }

  /** The two tabs, `js` first. */
  function Tabs(ctx: Context): (tabs: seq<Tab>)
    ensures |tabs| == 2 && tabs[0].selects == Js && tabs[1].selects == Css
    ensures forall i :: 0 <= i < |tabs| ==> (tabs[i].highlighted <==> tabs[i].selects == ctx.activeFile)
    ensures tabs[0].highlighted != tabs[1].highlighted
    ensures tabs[0].caption != tabs[1].caption
  {
    [TabFor(ctx, Js), TabFor(ctx, Css)]
  }

  /** Clicking a tab selects its file; the store is unchanged, and the tab
      clicked is then the highlighted one. */
  function ClickTab(ctx: Context, tab: Tab): (r: Context)
    ensures r.activeFile == tab.selects
    ensures r.code == ctx.code && r.activeHook == ctx.activeHook
    ensures TabFor(r, tab.selects).highlighted && !TabFor(r, Other(tab.selects)).highlighted
  {
    SetActiveFile(ctx, tab.selects)
  }

  /** Switching tabs shows the other file's buffer as it was left: a tab
      switch loses no edit, and switching back shows the first buffer again. */
  lemma ClickTabShowsBuffer(ctx: Context, tab: Tab)
    ensures DisplayedValue(ClickTab(ctx, tab)) == ctx.Cell(ctx.activeHook, tab.selects)
    ensures var back := TabFor(ClickTab(ctx, tab), ctx.activeFile);
      DisplayedValue(ClickTab(ClickTab(ctx, tab), back)) == DisplayedValue(ctx)
  {
  }
}

=== FILE: code_preview.dfy ===
/** The preview pipeline (src/components/CodePreview.tsx, lines 7-119): the
    per-run update of the `(error, renderedOutput)` state, the choice of what
    the preview panel shows, and the `ErrorBoundary` latch.

    One run reads the active topic's script, strips imports, rewrites the
    default export, hands the result to Babel, and compiles and calls it with
    `new Function`. Babel and the compile-and-call step are foreign code; they
    are parameters of the model (`transform`, `evaluate`) that either return
    a value or throw one. Everything between them is modelled exactly. */
module CodePreview {
  import opened Wrappers
  import opened CodeContext
  import opened JsText
  import ImportStripping
  import ExportRewrite

  /** A thrown JavaScript value: an `Error` instance, with its `message`, or
      any other value, with the text `String(value)` gives and the string
      `message` property it may carry. */
  datatype Thrown = ErrorInstance(message: string) | OtherValue(text: string, messageProperty: Option<string>)

  /** `err instanceof Error ? err.message : String(err)`. */
  function Diagnostic(t: Thrown): (message: string)
    ensures t.ErrorInstance? ==> message == t.message
    ensures t.OtherValue? ==> message == t.text
  {
    match t
    case ErrorInstance(m) => m
    case OtherValue(text, _) => text
  }

  /** The identity of a JavaScript function value. */
  datatype FunctionValue = FunctionValue(identity: nat)

  /** `React.createElement(component)`. */
  datatype Element = CreateElement(component: FunctionValue)

  /** `Babel.transform(text, { presets: ["react"] }).code`: the transformed
      text, `null`, or a thrown error. */
  type Transformer = string -> Result<Option<string>, Thrown>

  /** `new Function(...parameters, body)` called with the matching React
      exports: a thrown error (from compiling or from running the body), or
      the value the body leaves in `Example` when `typeof Example` is
      `"function"`, or `None` when `Example` is missing or not a function. */
  type Evaluator = (seq<string>, string) -> Result<Option<FunctionValue>, Thrown>

  /** The parameter names of the compiled function, in order: the only
      bindings the user's code receives. */
  const Capabilities: seq<string> := [
    "React", "useState", "useEffect", "useContext", "createContext", "useReducer",
    "useRef", "useMemo", "useCallback", "useTransition", "useDeferredValue"
  ]

  /** The text appended after the transformed code: the entry symbol is
      `Example` for every topic. */
  const ResolveExample: string :=
    "\n        return typeof Example === 'function' ? React.createElement(Example) : null;"

  /** The eleven capability names are distinct. */
  lemma CapabilitiesDistinct()
    ensures |Capabilities| == 11
    ensures forall i, j :: 0 <= i < j < |Capabilities| ==> Capabilities[i] != Capabilities[j]
  {
  }

  /** The two source rewrites, in order: imports are stripped first, and the
      export rewrite sees only what stripping kept. */
  function Normalize(source: string): (r: string)
    ensures ExportRewrite.FindExport(ImportStripping.StripImports(source), 0).None? ==> r == ImportStripping.StripImports(source)
  {
    ExportRewrite.RewriteExport(ImportStripping.StripImports(source))
  }

  /** A script with no `import` and no `export default <word>` reaches Babel
      unchanged. */
  lemma NormalizeKeepsPlainScript(source: string)
    requires forall p :: !StartsWithAt(source, p, ImportStripping.ImportKeyword)
    requires forall p: nat, a: nat, b: nat :: !ExportRewrite.ExportMatch(source, p, a, b)
    ensures Normalize(source) == source
  {
    ImportStripping.StripImportsWithoutKeyword(source);
    ExportRewrite.RewriteExportWithoutMatch(source);
  }

  /** The body of the compiled function: the transformed text, unchanged,
      followed by the resolution of `Example`. */
  function FunctionBody(transformed: string): (body: string)
    ensures |body| == |transformed| + |ResolveExample|
    ensures body[..|transformed|] == transformed && body[|transformed|..] == ResolveExample
  {
    transformed + ResolveExample
  }

  /** The names a stored pair is read with here: its own properties `js` and
      `css`, and `jsx`, the one line 47 reads. Names `Object.prototype`
      supplies (`toString`, `constructor`, ...) read functions and objects
      rather than `undefined`; they are never read and stay outside the
      model. */
  predicate ReadableName(name: string) {
    name == "js" || name == "css" || name == "jsx"
  }

  /** Reading property `name` of a stored `{js, css}` pair: `jsx`, which
      neither the pair nor `Object.prototype` has, reads `undefined`. */
  function Property(files: Files, name: string): (r: Option<string>)
    requires ReadableName(name)
    ensures name == "js" ==> r == Some(files.js)
    ensures name == "css" ==> r == Some(files.css)
    ensures name == "jsx" ==> r.None?
  {
    if name == "js" then Some(files.js)
    else if name == "css" then Some(files.css)
    else None
  }

  /** The property the script is read through: `.jsx`, as line 47 reads it,
      or `.js`, the property the store defines. */
  datatype ScriptProperty = JsxProperty | JsProperty {
    function Name(): (name: string)
      ensures ReadableName(name)
    {
      if JsxProperty? then "jsx" else "js"
    }
  }

  const PropertyAsWritten: ScriptProperty := JsxProperty
  const PropertyIntended: ScriptProperty := JsProperty

  /** Under either reading, what is read depends on the script alone, never on
      the stylesheet. */
  lemma ScriptReadIgnoresStylesheet(property: ScriptProperty, files1: Files, files2: Files)
    requires files1.js == files2.js
    ensures Property(files1, property.Name()) == Property(files2, property.Name())
  {
  }

  /** What V8 throws for `undefined.replace(...)`. */
  const UndefinedReplaceMessage: string := "Cannot read properties of undefined (reading 'replace')"

  /** The body of the `try` block: the element it would set, or what it threw. */
  function Attempt(source: Option<string>, transform: Transformer, evaluate: Evaluator): (r: Result<Option<Element>, Thrown>)
    ensures source.None? ==> r == Failure(ErrorInstance(UndefinedReplaceMessage))
    ensures source.Some? && transform(Normalize(source.value)).Failure? ==> r == Failure(transform(Normalize(source.value)).error)
    ensures r.Success? ==> source.Some? && transform(Normalize(source.value)).Success?
    ensures source.Some? && transform(Normalize(source.value)).Success? ==>
      var ev := evaluate(Capabilities, FunctionBody(transform(Normalize(source.value)).value.GetOr("")));
      && (ev.Failure? ==> r == Failure(ev.error))
      && (ev.Success? ==> r == Success(if ev.value.Some? then Some(CreateElement(ev.value.value)) else None))
  {
    match source
    case None => Failure(ErrorInstance(UndefinedReplaceMessage))
    case Some(text) =>
      match transform(Normalize(text))
      case Failure(t) => Failure(t)
      case Success(code) =>
        match evaluate(Capabilities, FunctionBody(code.GetOr("")))
        case Failure(t) => Failure(t)
        case Success(example) =>
          if example.Some? then Success(Some(CreateElement(example.value))) else Success(None)
  }

  /** The component's `(error, renderedOutput)` state. */
  datatype Preview = Preview(error: Option<string>, output: Option<Element>)

  const PreviewInitial: Preview := Preview(None, None)

  /** Commits the outcome of a run: `setError(null)`, then either
      `setRenderedOutput(result)` or `setError(message)` and
      `setRenderedOutput(null)`. Nothing of the previous state survives: a
      completed run leaves no error and its own result, a throw leaves its
      message and no output. */
  function Commit(prev: Preview, attempt: Result<Option<Element>, Thrown>): (next: Preview)
    ensures attempt.Success? ==> next.error.None? && next.output == attempt.value
    ensures attempt.Failure? ==> next.error == Some(Diagnostic(attempt.error)) && next.output.None?
  {
    var cleared := prev.(error := None);
    match attempt
    case Success(result) => cleared.(output := result)
    case Failure(err) => cleared.(error := Some(Diagnostic(err))).(output := None)
  }

  /** One run of the effect over the active topic's stored pair, reading its
      script through `property`. */
  function RunPipeline(prev: Preview, files: Files, property: ScriptProperty, transform: Transformer, evaluate: Evaluator): (next: Preview)
    ensures next.error.Some? ==> next.output.None?
    ensures next.output.Some? ==> next.error.None?
  {
    Commit(prev, Attempt(Property(files, property.Name()), transform, evaluate))
  }

  /** A run in which every stage completes: the error is cleared and the
      output is `createElement(Example)` when `Example` is a function, and
      `null` (not an error) when it is missing or not a function. */
  lemma CompletedRun(prev: Preview, files: Files, transform: Transformer, evaluate: Evaluator, code: Option<string>, example: Option<FunctionValue>)
    requires transform(Normalize(files.js)) == Success(code)
    requires evaluate(Capabilities, FunctionBody(code.GetOr(""))) == Success(example)
    ensures var next := RunPipeline(prev, files, PropertyIntended, transform, evaluate);
      && next.error.None?
      && (next.output.Some? <==> example.Some?)
      && (example.Some? ==> next.output == Some(CreateElement(example.value)))
  {
  }

  /** A throw in the transform, or in compiling or running the code, leaves
      the message of what was thrown and no output, whatever the previous
      state held. */
  lemma ThrowingRun(prev: Preview, files: Files, transform: Transformer, evaluate: Evaluator, thrown: Thrown)
    requires || transform(Normalize(files.js)) == Failure(thrown)
             || (&& transform(Normalize(files.js)).Success?
                 && evaluate(Capabilities, FunctionBody(transform(Normalize(files.js)).value.GetOr(""))) == Failure(thrown))
    ensures RunPipeline(prev, files, PropertyIntended, transform, evaluate) == Preview(Some(Diagnostic(thrown)), None)
  {
  }

  /** Nothing of the previous state survives a run, whatever property is
      read. */
  lemma RunForgetsPrevious(prev1: Preview, prev2: Preview, files: Files, property: ScriptProperty, transform: Transformer, evaluate: Evaluator)
    ensures RunPipeline(prev1, files, property, transform, evaluate)
         == RunPipeline(prev2, files, property, transform, evaluate)
  {
  }

  /** The run depends on the active topic only through its script, and not
      on the previous state: the same script gives the same state under every
      topic, stylesheet and earlier outcome, since no parameter of the
      compiled function carries the topic and `Example` is resolved for every
      topic alike. This holds for the reading as written and for the
      intended one. */
  lemma RunReadsOnlyScript(prev1: Preview, prev2: Preview, files1: Files, files2: Files, property: ScriptProperty, transform: Transformer, evaluate: Evaluator)
    requires files1.js == files2.js
    ensures RunPipeline(prev1, files1, property, transform, evaluate)
         == RunPipeline(prev2, files2, property, transform, evaluate)
  {
    ScriptReadIgnoresStylesheet(property, files1, files2);
  }

  /** As written, line 47 reads `.jsx`, which the stored pair does not have:
      every run throws on `undefined.replace`, whatever the script, Babel or
      the compiled code would do. */
  function RunPipelineAsWritten(prev: Preview, files: Files, transform: Transformer, evaluate: Evaluator): (next: Preview)
    ensures next == Preview(Some(UndefinedReplaceMessage), None)
  {
    RunPipeline(prev, files, PropertyAsWritten, transform, evaluate)
  }

  /** The run with the property the store defines: a script whose stages all
      complete and whose `Example` is a function renders that function, where
      the run as written shows an error instead. */
  lemma IntendedRunRenders(prev: Preview, files: Files, transform: Transformer, evaluate: Evaluator, code: Option<string>, f: FunctionValue)
    requires transform(Normalize(files.js)) == Success(code)
    requires evaluate(Capabilities, FunctionBody(code.GetOr(""))) == Success(Some(f))
    ensures RunPipeline(prev, files, PropertyIntended, transform, evaluate) == Preview(None, Some(CreateElement(f)))
    ensures RunPipelineAsWritten(prev, files, transform, evaluate) != RunPipeline(prev, files, PropertyIntended, transform, evaluate)
  {
  }

  /** What the panel inside the preview card holds. */
  datatype Content = Rendered(element: Element) | Placeholder
  datatype Panel = ErrorPanel(message: string) | Stage(css: string, content: Content)

  /** The view of lines 110-119: a truthy `error` (a non-empty message) shows
      only the error panel; otherwise the active topic's stylesheet is
      injected and the output, or the placeholder when there is none, is shown
      inside the error boundary. */
  function SelectView(p: Preview, css: string): (v: Panel)
    ensures v.ErrorPanel? <==> p.error.Some? && p.error.value != ""
    ensures v.ErrorPanel? ==> v.message == p.error.value
    ensures v.Stage? ==> v.css == css
    ensures v.Stage? ==> (v.content.Rendered? <==> p.output.Some?)
    ensures v.Stage? && p.output.Some? ==> v.content.element == p.output.value
  {
    if p.error.Some? && p.error.value != "" then ErrorPanel(p.error.value)
    else Stage(css, if p.output.Some? then Rendered(p.output.value) else Placeholder)
  }

  /** After a run that threw a value with a non-empty message, only the error
      panel is shown: no output and no stylesheet. After a run that completed,
      the stylesheet and the run's own output (or the placeholder) are shown. */
  lemma ViewAfterRun(prev: Preview, files: Files, transform: Transformer, evaluate: Evaluator, css: string)
    ensures var next := RunPipeline(prev, files, PropertyIntended, transform, evaluate);
      var v := SelectView(next, css);
      && (next.error.Some? && next.error.value != "" ==> v == ErrorPanel(next.error.value))
      && (next.error.None? ==> v.Stage? && v.css == css)
  {
  }

  /** A thrown value with an empty message sets `error` to `""`, which is
      falsy: the panel shows the stylesheet and the placeholder, not the
      error. */
  lemma EmptyMessageShowsPlaceholder(prev: Preview, files: Files, transform: Transformer, evaluate: Evaluator, css: string)
    requires transform(Normalize(files.js)) == Failure(ErrorInstance(""))
    ensures SelectView(RunPipeline(prev, files, PropertyIntended, transform, evaluate), css) == Stage(css, Placeholder)
  {
  }

  /** The state of `ErrorBoundary`. */
  datatype Boundary = Boundary(hasError: bool, error: Option<Thrown>)

  const BoundaryInitial: Boundary := Boundary(false, None)

  /** `getDerivedStateFromError(error)`. */
  function DerivedStateFromError(error: Thrown): (b: Boundary)
    ensures b.hasError && b.error == Some(error)
  {
    Boundary(true, Some(error))
  }

  /** What happens to a mounted boundary: a descendant throws while
      rendering, or it renders again. */
  datatype BoundaryEvent = ChildThrew(thrown: Thrown) | Rerender

  function BoundaryStep(b: Boundary, ev: BoundaryEvent): (r: Boundary)
    ensures ev.ChildThrew? ==> r.hasError && r.error == Some(ev.thrown)
    ensures ev.Rerender? ==> r == b
  {
    match ev
    case ChildThrew(t) => DerivedStateFromError(t)
    case Rerender => b
  }

  /** The boundary's state after a sequence of events. */
  function BoundaryAfter(b: Boundary, evs: seq<BoundaryEvent>): Boundary
    decreases |evs|
  {
    if |evs| == 0 then b else BoundaryAfter(BoundaryStep(b, evs[0]), evs[1..])
  }

  /** `hasError` is a latch: it holds after a sequence of events exactly when
      it held before or some descendant threw; no event resets it. */
  lemma {:induction false} BoundaryLatches(b: Boundary, evs: seq<BoundaryEvent>)
    ensures BoundaryAfter(b, evs).hasError <==> b.hasError || exists k :: 0 <= k < |evs| && evs[k].ChildThrew?
    decreases |evs|
  {
    if |evs| > 0 {
      BoundaryLatches(BoundaryStep(b, evs[0]), evs[1..]);
      if exists k :: 0 <= k < |evs[1..]| && evs[1..][k].ChildThrew? {
        var k :| 0 <= k < |evs[1..]| && evs[1..][k].ChildThrew?;
        assert evs[k + 1].ChildThrew?;
      }
      if exists k :: 0 <= k < |evs| && evs[k].ChildThrew? {
        var k :| 0 <= k < |evs| && evs[k].ChildThrew?;
        if k > 0 {
          assert evs[1..][k - 1].ChildThrew?;
        }
      }
    }
  }

  /** What `render()` returns. */
  datatype BoundaryOutput<C> = Fallback(message: Option<string>) | Children(children: C)

  /** `this.state.error?.message`: nothing without an error, the message of
      an `Error`, and whatever `message` property another thrown value has. */
  function FallbackMessage(error: Option<Thrown>): (m: Option<string>)
    ensures error.None? ==> m.None?
    ensures error.Some? && error.value.ErrorInstance? ==> m == Some(error.value.message)
    ensures error.Some? && error.value.OtherValue? ==> m == error.value.messageProperty
  {
    match error
    case None => None
    case Some(ErrorInstance(m)) => Some(m)
    case Some(OtherValue(_, m)) => m
  }

  /** While `hasError` holds the boundary renders the fallback with the
      error's message in place of its children; otherwise its children. */
  function BoundaryRender<C>(b: Boundary, children: C): (r: BoundaryOutput<C>)
    ensures r.Fallback? <==> b.hasError
    ensures r.Fallback? ==> r.message == FallbackMessage(b.error)
    ensures r.Children? ==> r.children == children
  {
    if b.hasError then Fallback(FallbackMessage(b.error)) else Children(children)
  }

  /** Once a descendant has thrown, the boundary never renders its children
      again, whatever happens afterwards. */
  lemma BoundaryNeverRecovers<C>(b: Boundary, evs: seq<BoundaryEvent>, k: nat, children: C)
    requires k < |evs| && evs[k].ChildThrew?
    ensures BoundaryRender(BoundaryAfter(b, evs), children).Fallback?
  {
    BoundaryLatches(b, evs);
  }

  /** A truthy `error`: the error panel takes the place of the stylesheet and
      of the boundary. */
  predicate ShowsError(p: Preview) {
    p.error.Some? && p.error.value != ""
  }

  /** The boundary once the preview state is `p`. While the error panel is
      shown the boundary is out of the tree, and the one that comes back with
      the stylesheet is a new instance, which starts without an error. */
  function SettleBoundary(b: Boundary, p: Preview): (r: Boundary)
    ensures ShowsError(p) ==> r == BoundaryInitial
    ensures !ShowsError(p) ==> r == b
  {
    if ShowsError(p) then BoundaryInitial else b
  }

  /** The rendered output throws `t` while React renders it. Only a mounted
      boundary that is rendering its children, with an element among them,
      sees the throw; the placeholder never throws. */
  function RenderThrows(b: Boundary, p: Preview, t: Thrown): (r: Boundary)
    ensures !ShowsError(p) && p.output.Some? && !b.hasError ==> r.hasError && r.error == Some(t)
    ensures ShowsError(p) || p.output.None? || b.hasError ==> r == b
  {
    if !ShowsError(p) && p.output.Some? && !b.hasError then BoundaryStep(b, ChildThrew(t)) else b
  }

  /** What the preview card shows: the error panel, or the stylesheet with
      what the boundary renders where the output or the placeholder goes. */
  datatype Screen = ErrorScreen(message: string) | StageScreen(css: string, shown: BoundaryOutput<Content>)

  function Display(p: Preview, b: Boundary, css: string): (sc: Screen)
    ensures sc.ErrorScreen? <==> ShowsError(p)
    ensures sc.ErrorScreen? ==> sc.message == p.error.value
    ensures sc.StageScreen? ==> sc.css == css && (sc.shown.Fallback? <==> b.hasError)
    ensures sc.StageScreen? && b.hasError ==> sc.shown.message == FallbackMessage(b.error)
    ensures sc.StageScreen? && !b.hasError ==>
      sc.shown == Children(if p.output.Some? then Rendered(p.output.value) else Placeholder)
  {
    match SelectView(p, css)
    case ErrorPanel(m) => ErrorScreen(m)
    case Stage(c, content) => StageScreen(c, BoundaryRender(b, content))
  }
}

=== FILE: dashboard.dfy ===
/** The layout state machine of src/components/Dashboard.tsx: whether the
    window counts as mobile, the split sizes of the editor and preview panes,
    and the transitions on resize, on the end of a drag, and on the mobile
    Editor/Preview buttons. The window width is an input; sizes are
    percentages, modelled as integers (they are only ever compared with 0
    and 100). */
module Dashboard {

  /** Widths below this are mobile. */
  const MobileBreakpoint: int := 768

  const EditorOnly: seq<int> := [100, 0]
  const PreviewOnly: seq<int> := [0, 100]
  const EvenSplit: seq<int> := [50, 50]

  datatype Layout = Layout(isMobile: bool, sizes: seq<int>)

  /** `splitSizes[0] === 100`; an empty array reads `undefined`, which is not 100. */
  predicate FirstIs(sizes: seq<int>, v: int) {
    |sizes| > 0 && sizes[0] == v
  }

  /** The state on mount: mobile below the breakpoint, the editor alone on
      mobile and an even split otherwise. */
  function InitialLayout(width: int): (l: Layout)
    ensures l.isMobile <==> width < MobileBreakpoint
    ensures l.isMobile ==> l.sizes == EditorOnly
    ensures !l.isMobile ==> l.sizes == EvenSplit
  {
    var mobile := width < MobileBreakpoint;
    Layout(mobile, if mobile then EditorOnly else EvenSplit)
  }

  /** `handleResize` for the new window width. */
  function HandleResize(l: Layout, width: int): (r: Layout)
    ensures r.isMobile <==> width < MobileBreakpoint
    ensures r.isMobile && !FirstIs(l.sizes, 100) ==> r.sizes == EditorOnly
    ensures !r.isMobile && FirstIs(l.sizes, 100) ==> r.sizes == EvenSplit
    ensures r.isMobile == FirstIs(l.sizes, 100) ==> r.sizes == l.sizes
    ensures r.isMobile ==> FirstIs(r.sizes, 100)
    ensures !r.isMobile ==> !FirstIs(r.sizes, 100)
  {
    var mobile := width < MobileBreakpoint;
    if mobile && !FirstIs(l.sizes, 100) then Layout(mobile, EditorOnly)
    else if !mobile && FirstIs(l.sizes, 100) then Layout(mobile, EvenSplit)
    else Layout(mobile, l.sizes)
  }

  /** A second resize to the same width changes nothing. */
  lemma ResizeIdempotent(l: Layout, width: int)
    ensures HandleResize(HandleResize(l, width), width) == HandleResize(l, width)
  {
  }

  /** `handleDragEnd(sizes)`: the dragged sizes replace the old ones verbatim. */
  function HandleDragEnd(l: Layout, sizes: seq<int>): (r: Layout)
    ensures r.sizes == sizes && r.isMobile == l.isMobile
  {
    l.(sizes := sizes)
  }

  /** The mobile Editor button. */
  function PressEditor(l: Layout): (r: Layout)
    ensures r.sizes == EditorOnly && r.isMobile == l.isMobile
  {
    l.(sizes := EditorOnly)
  }

  /** The mobile Preview button. */
  function PressPreview(l: Layout): (r: Layout)
    ensures r.sizes == PreviewOnly && r.isMobile == l.isMobile
  {
    l.(sizes := PreviewOnly)
  }

  /** What the main area shows. */
  datatype View =
    | MobileEditor(editorHighlighted: bool, previewHighlighted: bool)
    | MobilePreview(editorHighlighted: bool, previewHighlighted: bool)
    | SplitPanes(sizes: seq<int>)

  /** On mobile, the editor alone when the first size is 100 and the preview
      alone otherwise, with each button highlighted when its pane fills the
      width; on a wide window, both panes at the current sizes. */
  function ChooseView(l: Layout): (v: View)
    ensures l.isMobile ==> (v.MobileEditor? <==> FirstIs(l.sizes, 100)) && !v.SplitPanes?
    ensures l.isMobile ==> v.editorHighlighted == FirstIs(l.sizes, 100) && v.previewHighlighted == FirstIs(l.sizes, 0)
    ensures !l.isMobile ==> v == SplitPanes(l.sizes)
  {
    if !l.isMobile then SplitPanes(l.sizes)
    else if FirstIs(l.sizes, 100) then MobileEditor(true, FirstIs(l.sizes, 0))
    else MobilePreview(false, FirstIs(l.sizes, 0))
  }

  /** The mobile buttons switch panes: Editor shows the editor, Preview the
      preview, each with its own button highlighted. */
  lemma MobileButtonsSwitchPanes(l: Layout)
    requires l.isMobile
    ensures ChooseView(PressEditor(l)) == MobileEditor(true, false)
    ensures ChooseView(PressPreview(l)) == MobilePreview(false, true)
  {
  }

  /** After any resize to a mobile width the editor is shown; after any
      resize to a wide window both panes are, and the editor does not fill
      the width. */
  lemma ResizeShowsEditorOnMobile(l: Layout, width: int)
    ensures width < MobileBreakpoint ==> ChooseView(HandleResize(l, width)).MobileEditor?
    ensures width >= MobileBreakpoint ==> ChooseView(HandleResize(l, width)).SplitPanes?
  {
  }

  /** The layout after a sequence of resizes, in order. */
  function ResizeAll(l: Layout, widths: seq<int>): Layout
    decreases |widths|
  {
    if |widths| == 0 then l else ResizeAll(HandleResize(l, widths[0]), widths[1..])
  }

  /** After one or more resizes, `isMobile` holds exactly when the editor
      fills the width, and the sizes are the ones before the resizes,
      `[100, 0]` or `[50, 50]`. */
  lemma {:induction false} ResizesKeepLayoutConsistent(l: Layout, widths: seq<int>)
    requires |widths| > 0
    ensures var r := ResizeAll(l, widths);
      && (r.isMobile <==> widths[|widths| - 1] < MobileBreakpoint)
      && (r.isMobile <==> FirstIs(r.sizes, 100))
      && (r.sizes == l.sizes || r.sizes == EditorOnly || r.sizes == EvenSplit)
    decreases |widths|
  {
    if |widths| > 1 {
      var l' := HandleResize(l, widths[0]);
      ResizesKeepLayoutConsistent(l', widths[1..]);
      assert widths[1..][|widths[1..]| - 1] == widths[|widths| - 1];
    }
  }
}

=== FILE: export_rewrite.dfy ===
/** The second source rewrite of the preview pipeline: the non-global
    replacement of `/export\s+default\s+(\w+)/` by `const $1_export = $1`
    (src/components/CodePreview.tsx, lines 53-56). Only the leftmost match
    is replaced; `\s+` and `\w+` are greedy. `MatchExportAt` is the pattern
    tried at one position, `FindExport` the leftmost search, and
    `ExportMatch` the declarative reading they are proved against. */
module ExportRewrite {
  import opened Wrappers
  import opened JsText

  const ExportKeyword: string := "export"
  const DefaultKeyword: string := "default"

  /** The two character classes the pattern repeats. */
  datatype CharClass = Space | Word

  predicate InClass(c: char, cls: CharClass) {
    match cls
    case Space => IsSpace(c)
    case Word => IsWordChar(c)
  }

  /** Every character of `s[i..j]` is in `cls`. */
  ghost predicate AllIn(s: string, i: nat, j: nat, cls: CharClass) {
    j <= |s| && forall k :: i <= k < j ==> InClass(s[k], cls)
  }

  /** The end of the greedy run of `cls` characters that begins at `i`. */
  function RunEnd(s: string, i: nat, cls: CharClass): (r: nat)
    requires i <= |s|
    ensures i <= r && AllIn(s, i, r, cls)
    ensures r == |s| || !InClass(s[r], cls)
    decreases |s| - i
  {
    if i == |s| || !InClass(s[i], cls) then i
    else RunEnd(s, i + 1, cls)
  }

  /** A run of `cls` from `i` that stops at `j` is the greedy one. */
  lemma RunEndUnique(s: string, i: nat, j: nat, cls: CharClass)
    requires i <= j && AllIn(s, i, j, cls)
    requires j == |s| || !InClass(s[j], cls)
    ensures RunEnd(s, i, cls) == j
  {
  }

  /** The pattern matches at `p`, capturing the word `s[a..b]`: `export`, at
      least one space, `default`, at least one space, and the longest
      nonempty run of word characters. */
  ghost predicate ExportMatch(s: string, p: nat, a: nat, b: nat) {
    var d0 := p + |ExportKeyword|;
    && StartsWithAt(s, p, ExportKeyword)
    && exists d: nat ::
      && d0 < d && AllIn(s, d0, d, Space) && StartsWithAt(s, d, DefaultKeyword)
      && d + |DefaultKeyword| < a && AllIn(s, d + |DefaultKeyword|, a, Space)
      && a < b && AllIn(s, a, b, Word) && (b == |s| || !IsWordChar(s[b]))
  }

  /** The bounds of the captured word when the pattern matches at `p`. */
  function MatchExportAt(s: string, p: nat): (r: Option<(nat, nat)>)
    ensures r.Some? ==> p < r.value.0 < r.value.1 <= |s|
  {
    if !StartsWithAt(s, p, ExportKeyword) then None
    else MatchAfterExport(s, p + |ExportKeyword|)
  }

  /** The rest of the pattern, `\s+default\s+(\w+)`, from just after `export`
      at `d0`. */
  function MatchAfterExport(s: string, d0: nat): (r: Option<(nat, nat)>)
    requires d0 <= |s|
    ensures r.Some? ==> d0 < r.value.0 < r.value.1 <= |s|
  {
    var d := RunEnd(s, d0, Space);
    if d == d0 || !StartsWithAt(s, d, DefaultKeyword) then None
    else
      var a := RunEnd(s, d + |DefaultKeyword|, Space);
      var b := RunEnd(s, a, Word);
      if a == d + |DefaultKeyword| || b == a then None else Some((a, b))
  }

  /** Every match the pattern describes is the one `MatchExportAt` finds. */
  lemma MatchExportAtComplete(s: string, p: nat, a: nat, b: nat)
    requires ExportMatch(s, p, a, b)
    ensures MatchExportAt(s, p) == Some((a, b))
  {
    var d0 := p + |ExportKeyword|;
    var d: nat :| && d0 < d && AllIn(s, d0, d, Space) && StartsWithAt(s, d, DefaultKeyword)
                  && d + |DefaultKeyword| < a && AllIn(s, d + |DefaultKeyword|, a, Space)
                  && a < b && AllIn(s, a, b, Word) && (b == |s| || !IsWordChar(s[b]));
    assert s[d] == 'd';
    RunEndUnique(s, d0, d, Space);
    WordCharIsNotSpace(s[a]);
    RunEndUnique(s, d + |DefaultKeyword|, a, Space);
    RunEndUnique(s, a, b, Word);
  }

  /** What `MatchExportAt` finds is a match the pattern describes. */
  lemma MatchExportAtSound(s: string, p: nat, a: nat, b: nat)
    requires MatchExportAt(s, p) == Some((a, b))
    ensures ExportMatch(s, p, a, b)
  {
    var d0 := p + |ExportKeyword|;
    var d := RunEnd(s, d0, Space);
    assert && d0 < d && AllIn(s, d0, d, Space) && StartsWithAt(s, d, DefaultKeyword)
           && d + |DefaultKeyword| < a && AllIn(s, d + |DefaultKeyword|, a, Space)
           && a < b && AllIn(s, a, b, Word) && (b == |s| || !IsWordChar(s[b]));
  }

  /** `MatchExportAt` finds exactly the matches the pattern describes. */
  lemma MatchExportAtCorrect(s: string, p: nat, a: nat, b: nat)
    ensures ExportMatch(s, p, a, b) <==> MatchExportAt(s, p) == Some((a, b))
  {
    if ExportMatch(s, p, a, b) {
      MatchExportAtComplete(s, p, a, b);
    }
    if MatchExportAt(s, p) == Some((a, b)) {
      MatchExportAtSound(s, p, a, b);
    }
  }

  /** The leftmost position at or after `p` where the pattern matches, with
      the bounds of the captured word. */
  function FindExport(s: string, p: nat): (r: Option<(nat, nat, nat)>)
    requires p <= |s|
    ensures r.Some? ==> p <= r.value.0 && MatchExportAt(s, r.value.0) == Some((r.value.1, r.value.2))
    ensures r.Some? ==> forall m :: p <= m < r.value.0 ==> MatchExportAt(s, m).None?
    ensures r.None? ==> forall m :: p <= m <= |s| ==> MatchExportAt(s, m).None?
    decreases |s| - p
  {
    var here := MatchExportAt(s, p);
    if here.Some? then Some((p, here.value.0, here.value.1))
    else if p == |s| then None
    else FindExport(s, p + 1)
  }

  /** The declaration that replaces a match capturing `word`. */
  function Alias(word: string): string {
    "const " + word + "_export = " + word
  }

  /** `code.replace(/export\s+default\s+(\w+)/, "const $1_export = $1")`. */
  function RewriteExport(s: string): (r: string)
    ensures FindExport(s, 0).None? ==> r == s
  {
    match FindExport(s, 0)
    case None => s
    case Some((p, a, b)) => s[..p] + Alias(s[a..b]) + s[b..]
  }

  /** When the pattern matches at `p` and nowhere before `p`, the rewrite
      replaces exactly that match by the alias declaration of its word, and
      keeps the text before and after it. */
  lemma RewriteExportAtFirstMatch(s: string, p: nat, a: nat, b: nat)
    requires ExportMatch(s, p, a, b)
    requires forall m: nat, a': nat, b': nat :: m < p ==> !ExportMatch(s, m, a', b')
    ensures p < a < b <= |s|
    ensures RewriteExport(s) == s[..p] + Alias(s[a..b]) + s[b..]
  {
    MatchExportAtCorrect(s, p, a, b);
    var r := FindExport(s, 0);
    assert r.Some?;
    var (m, a', b') := r.value;
    MatchExportAtCorrect(s, m, a', b');
    assert !(m < p);
    assert m == p;
  }

  /** Text in which the pattern matches nowhere is left unchanged. */
  lemma RewriteExportWithoutMatch(s: string)
    requires forall p: nat, a: nat, b: nat :: !ExportMatch(s, p, a, b)
    ensures RewriteExport(s) == s
  {
    var r := FindExport(s, 0);
    if r.Some? {
      MatchExportAtCorrect(s, r.value.0, r.value.1, r.value.2);
    }
  }
}

=== FILE: import_stripping.dfy ===
/** The first source rewrite of the preview pipeline: the global, lazy
    replacement of `/import.*?;(\r?\n|\r)/g` by the empty string
    (src/components/CodePreview.tsx, lines 47-50).

    `String.prototype.replace` with a global pattern scans left to right: at
    each position it tries the pattern; on a match it drops the matched text
    and resumes right after it, otherwise it keeps one character and moves
    on. `MatchAt` is the pattern tried at one position, `StripFrom` the scan.
    `ImportMatch` and `IsScanFrom` are the declarative readings they are
    proved against. */
module ImportStripping {
  import opened Wrappers
  import opened JsText

  const ImportKeyword: string := "import"

  /** The length of the group `(\r?\n|\r)` matched at `i`, alternatives tried in
      order: CR LF first, then LF, then a lone CR; 0 when the group fails. */
  function BreakLength(s: string, i: nat): (n: nat)
    ensures n <= 2 && (n > 0 ==> i + n <= |s|)
    ensures n == 0 <==> i >= |s| || (s[i] != '\n' && s[i] != '\r')
    ensures n == 2 <==> i + 1 < |s| && s[i] == '\r' && s[i + 1] == '\n'
  {
    if i + 1 < |s| && s[i] == '\r' && s[i + 1] == '\n' then 2
    else if i < |s| && (s[i] == '\n' || s[i] == '\r') then 1
    else 0
  }

  /** A `;` at `q` immediately followed by a line break. */
  predicate TerminatedAt(s: string, q: nat) {
    q < |s| && s[q] == ';' && BreakLength(s, q + 1) > 0
  }

  /** The lazy `.*?;(\r?\n|\r)` begun at `j` stops at the `;` at `q`: every
      character skipped before `q` is one `.` accepts, and none of them is
      itself a `;` followed by a break (laziness takes the first). */
  ghost predicate FirstTerminatorFrom(s: string, j: nat, q: nat) {
    && j <= q
    && TerminatedAt(s, q)
    && forall k :: j <= k < q ==> !IsLineTerminator(s[k]) && !TerminatedAt(s, k)
  }

  /** Advances the lazy `.*?` from `j` until `;(\r?\n|\r)` matches or `.` fails. */
  function FindTerminator(s: string, j: nat): (r: Option<nat>)
    requires j <= |s|
    ensures forall q: nat :: FirstTerminatorFrom(s, j, q) <==> r == Some(q)
    decreases |s| - j
  {
    if j == |s| || IsLineTerminator(s[j]) then None
    else if TerminatedAt(s, j) then Some(j)
    else FindTerminator(s, j + 1)
  }

  /** The pattern matches at `p` and its match ends (exclusively) at `e`. */
  ghost predicate ImportMatch(s: string, p: nat, e: nat) {
    var j := p + |ImportKeyword|;
    && StartsWithAt(s, p, ImportKeyword)
    && exists q: nat :: FirstTerminatorFrom(s, j, q) && e == q + 1 + BreakLength(s, q + 1)
  }

  /** The end of the pattern's match at `p`, if it matches there. */
  function MatchAt(s: string, p: nat): (r: Option<nat>)
    ensures r.Some? ==> p < r.value <= |s|
    ensures forall e: nat :: ImportMatch(s, p, e) <==> r == Some(e)
  {
    if !StartsWithAt(s, p, ImportKeyword) then None
    else
      var found := FindTerminator(s, p + |ImportKeyword|);
      if found.None? then None
      else
        var q := found.value;
        assert FirstTerminatorFrom(s, p + |ImportKeyword|, q);
        Some(q + 1 + BreakLength(s, q + 1))
  }

  /** The global replacement applied to `s[i..]`. */
  function StripFrom(s: string, i: nat): (r: string)
    requires i <= |s|
    ensures |r| <= |s| - i
    decreases |s| - i
  {
    if i == |s| then ""
    else
      match MatchAt(s, i)
      case Some(e) => StripFrom(s, e)
      case None => [s[i]] + StripFrom(s, i + 1)
  }

  /** `code.replace(/import.*?;(\r?\n|\r)/g, "")`. */
  function StripImports(s: string): (r: string)
    ensures |r| <= |s|
  {
    StripFrom(s, 0)
  }

  /** The three line breaks the pattern's final group accepts. */
  predicate IsLineBreak(b: string) {
    b == "\r\n" || b == "\n" || b == "\r"
  }

  /** The shape of a removed statement: `import`, then characters containing
      no line terminator, then `;` and a line break. */
  ghost predicate IsImportStatement(t: string) {
    && StartsWithAt(t, 0, ImportKeyword)
    && exists k :: |ImportKeyword| <= k < |t| && t[k] == ';' && IsLineBreak(t[k + 1..])
                   && forall m :: |ImportKeyword| <= m < k ==> !IsLineTerminator(t[m])
  }

  /** One step of the scan: a character kept, or a matched statement removed. */
  datatype Piece = Kept(c: char) | Removed(text: string)

  /** `ps` is the scan of `s[i..]` under the regular-expression semantics: a
      piece is removed exactly where the pattern matches, with the text of
      that match, and a character is kept exactly where it does not. */
  ghost predicate IsScanFrom(s: string, i: nat, ps: seq<Piece>)
    decreases |ps|
  {
    if |ps| == 0 then i == |s|
    else
      match ps[0]
      case Kept(c) =>
        && i < |s| && c == s[i]
        && (forall e: nat :: !ImportMatch(s, i, e))
        && IsScanFrom(s, i + 1, ps[1..])
      case Removed(t) =>
        && i + |t| <= |s| && t == s[i..i + |t|]
        && ImportMatch(s, i, i + |t|)
        && IsScanFrom(s, i + |t|, ps[1..])
  }

  /** All pieces, kept and removed, concatenated. */
  function Joined(ps: seq<Piece>): string {
    if |ps| == 0 then ""
    else
      match ps[0]
      case Kept(c) => [c] + Joined(ps[1..])
      case Removed(t) => t + Joined(ps[1..])
  }

  /** The text of the first piece, then the rest. */
  lemma JoinedHead(ps: seq<Piece>)
    requires |ps| > 0
    ensures Joined(ps) == (if ps[0].Kept? then [ps[0].c] else ps[0].text) + Joined(ps[1..])
  {
  }

  /** The kept characters, in order. */
  function KeptText(ps: seq<Piece>): string {
    if |ps| == 0 then ""
    else
      match ps[0]
      case Kept(c) => [c] + KeptText(ps[1..])
      case Removed(_) => KeptText(ps[1..])
  }

  /** A match is an import statement of the stated shape. */
  lemma MatchIsImportStatement(s: string, p: nat, e: nat)
    requires ImportMatch(s, p, e)
    ensures e <= |s| && IsImportStatement(s[p..e])
  {
    var q: nat :| FirstTerminatorFrom(s, p + |ImportKeyword|, q) && e == q + 1 + BreakLength(s, q + 1);
    var t := s[p..e];
    var k := q - p;
    assert t[..|ImportKeyword|] == s[p..p + |ImportKeyword|];
    assert t[k] == ';';
    assert t[k + 1..] == s[q + 1..e];
    assert IsLineBreak(t[k + 1..]);
    forall m | |ImportKeyword| <= m < k
      ensures !IsLineTerminator(t[m])
    {
      assert t[m] == s[p + m];
    }
  }

  /** A scan accounts for every character of its input, in order: the removed
      segments are disjoint and everything between them is kept. */
  lemma {:induction false} ScanCoversInput(s: string, i: nat, ps: seq<Piece>)
    requires IsScanFrom(s, i, ps)
    ensures i <= |s| && Joined(ps) == s[i..]
    decreases |ps|
  {
    if |ps| > 0 {
      match ps[0]
      case Kept(c) =>
        ScanCoversInput(s, i + 1, ps[1..]);
        JoinedKept(s, i, ps);
      case Removed(t) =>
        ScanCoversInput(s, i + |t|, ps[1..]);
        JoinedRemoved(s, i, ps);
    }
  }

  /** A kept first character that is `s[i]`, in front of pieces that join to
      `s[i + 1..]`, joins to `s[i..]`. */
  lemma JoinedKept(s: string, i: nat, ps: seq<Piece>)
    requires i < |s| && |ps| > 0 && ps[0] == Kept(s[i])
    requires Joined(ps[1..]) == s[i + 1..]
    ensures Joined(ps) == s[i..]
  {
    JoinedHead(ps);
    SliceCons(s, i, |s|);
  }

  /** A removed first piece that is `s[i..i + n]`, in front of pieces that
      join to `s[i + n..]`, joins to `s[i..]`. */
  lemma JoinedRemoved(s: string, i: nat, ps: seq<Piece>)
    requires |ps| > 0 && ps[0].Removed?
    requires i + |ps[0].text| <= |s| && ps[0].text == s[i..i + |ps[0].text|]
    requires Joined(ps[1..]) == s[i + |ps[0].text|..]
    ensures Joined(ps) == s[i..]
  {
    JoinedHead(ps);
    SliceSplit(s, i, i + |ps[0].text|);
  }

  /** Every removed piece of a scan is an import statement. */
  lemma {:induction false} ScanRemovesStatements(s: string, i: nat, ps: seq<Piece>)
    requires IsScanFrom(s, i, ps)
    ensures forall k :: 0 <= k < |ps| && ps[k].Removed? ==> IsImportStatement(ps[k].text)
    decreases |ps|
  {
    if |ps| > 0 {
      match ps[0]
      case Kept(c) =>
        ScanRemovesStatements(s, i + 1, ps[1..]);
      case Removed(t) =>
        MatchIsImportStatement(s, i, i + |t|);
        ScanRemovesStatements(s, i + |t|, ps[1..]);
      RemovedPiecesCons(ps);
    }
  }

  /** The removed pieces are statements when the first one is (if removed)
      and those of the rest are. */
  lemma RemovedPiecesCons(ps: seq<Piece>)
    requires |ps| > 0
    requires ps[0].Removed? ==> IsImportStatement(ps[0].text)
    requires forall k :: 0 <= k < |ps[1..]| && ps[1..][k].Removed? ==> IsImportStatement(ps[1..][k].text)
    ensures forall k :: 0 <= k < |ps| && ps[k].Removed? ==> IsImportStatement(ps[k].text)
  {
    forall k | 0 < k < |ps| && ps[k].Removed?
      ensures IsImportStatement(ps[k].text)
    {
      assert ps[k] == ps[1..][k - 1];
    }
  }

  /** The scan a global replacement performs exists for every input. */
  lemma {:induction false} ScanExists(s: string, i: nat)
    requires i <= |s|
    ensures exists ps :: IsScanFrom(s, i, ps)
    decreases |s| - i
  {
    if i == |s| {
      assert IsScanFrom(s, i, []);
    } else {
      match MatchAt(s, i)
      case Some(e) =>
        ScanExists(s, e);
        var rest :| IsScanFrom(s, e, rest);
        var ps := [Removed(s[i..e])] + rest;
        assert ps[1..] == rest;
        assert IsScanFrom(s, i, ps);
      case None =>
        ScanExists(s, i + 1);
        var rest :| IsScanFrom(s, i + 1, rest);
        var ps := [Kept(s[i])] + rest;
        assert ps[1..] == rest;
        assert IsScanFrom(s, i, ps);
    }
  }

  /** Whatever scan satisfies the regular-expression semantics, the stripped
      text is exactly its kept characters. */
  lemma {:induction false} StripKeepsScanText(s: string, i: nat, ps: seq<Piece>)
    requires i <= |s| && IsScanFrom(s, i, ps)
    ensures StripFrom(s, i) == KeptText(ps)
    decreases |ps|
  {
    if |ps| > 0 {
      match ps[0]
      case Kept(c) =>
        StripKeepsScanText(s, i + 1, ps[1..]);
      case Removed(t) =>
        assert MatchAt(s, i) == Some(i + |t|);
        StripKeepsScanText(s, i + |t|, ps[1..]);
    }
  }

  /** Import stripping deletes only disjoint import statements and keeps the
      rest of the text in order: the input splits into kept characters and
      removed statements, every removed piece is a match of the pattern (so
      begins with `import`, has no line terminator before its final `;`, and
      ends with `;` and a line break), no match begins at a kept character,
      and the result is the kept characters. */
  lemma StripImportsDecomposition(s: string)
    ensures exists ps: seq<Piece> ::
      && IsScanFrom(s, 0, ps)
      && Joined(ps) == s
      && StripImports(s) == KeptText(ps)
      && (forall k :: 0 <= k < |ps| && ps[k].Removed? ==> IsImportStatement(ps[k].text))
  {
    ScanExists(s, 0);
    var ps :| IsScanFrom(s, 0, ps);
    ScanCoversInput(s, 0, ps);
    StripKeepsScanText(s, 0, ps);
    ScanRemovesStatements(s, 0, ps);
  }

  /** Where the pattern matches nowhere, the scan keeps every character. */
  lemma {:induction false} StripFromWithoutMatch(s: string, i: nat)
    requires i <= |s|
    requires forall p :: i <= p < |s| ==> MatchAt(s, p).None?
    ensures StripFrom(s, i) == s[i..]
    decreases |s| - i
  {
    if i < |s| {
      StripFromWithoutMatch(s, i + 1);
      assert s[i..] == [s[i]] + s[i + 1..];
    }
  }

  /** Text containing no `import` is left unchanged. */
  lemma StripImportsWithoutKeyword(s: string)
    requires forall p :: !StartsWithAt(s, p, ImportKeyword)
    ensures StripImports(s) == s
  {
    StripFromWithoutMatch(s, 0);
  }

  /** Text in which no `;` is directly followed by a line break (an `import`
      statement on the last line without a trailing newline, say) is left
      unchanged. */
  lemma StripImportsWithoutTerminatedSemicolon(s: string)
    requires forall q :: 0 <= q && q + 1 < |s| && s[q] == ';' ==> s[q + 1] != '\n' && s[q + 1] != '\r'
    ensures StripImports(s) == s
  {
    forall p | 0 <= p < |s|
      ensures MatchAt(s, p).None?
    {
      if StartsWithAt(s, p, ImportKeyword) {
        var found := FindTerminator(s, p + |ImportKeyword|);
        assert found.Some? ==> TerminatedAt(s, found.value);
      }
    }
    StripFromWithoutMatch(s, 0);
  }

  /** The example below: the text after the spliced statement holds no match. */
  lemma SpliceTail(s: string)
    requires s == "impimport x;\nort y;\n"
    ensures StripFrom(s, 13) == "ort y;\n"
  {
    forall p | 13 <= p < |s| ensures MatchAt(s, p).None? {
      if p == 13 { assert s[13..19][0] == 'o'; } else if p == 14 { assert s[14..20][0] == 'r'; }
    }
    StripFromWithoutMatch(s, 13);
    assert s[13..] == "ort y;\n";
  }

  /** The example below: the statement at position 3. */
  lemma SpliceMatch(s: string)
    requires s == "impimport x;\nort y;\n"
    ensures MatchAt(s, 3) == Some(13)
  {
    assert TerminatedAt(s, 11);
    assert FindTerminator(s, 11) == Some(11);
    assert FindTerminator(s, 9) == Some(11);
    assert s[3..9] == ImportKeyword;
  }

  /** The example below: no match in the first three positions. */
  lemma SpliceHead(s: string)
    requires s == "impimport x;\nort y;\n"
    ensures forall p :: 0 <= p < 3 ==> MatchAt(s, p).None?
  {
    forall p | 0 <= p < 3
      ensures MatchAt(s, p).None?
    {
      if p == 0 {
        assert s[0..6][3] == 'i';
      } else if p == 1 {
        assert s[1..7][0] == 'm';
      } else {
        assert s[2..8][0] == 'p';
      }
    }
  }

  /** The example below, second pass. */
  lemma StripSecondPass(t: string)
    requires t == "import y;\n"
    ensures StripFrom(t, 0) == ""
  {
    assert t[0..6] == ImportKeyword;
    assert TerminatedAt(t, 8);
    assert FindTerminator(t, 6) == Some(8);
    assert MatchAt(t, 0) == Some(10);
  }

  /** Where the pattern does not match, the scan keeps one character. */
  lemma StripKeepsChar(s: string, i: nat)
    requires i < |s| && MatchAt(s, i).None?
    ensures StripFrom(s, i) == [s[i]] + StripFrom(s, i + 1)
  {
  }

  /** One kept character in front of a stretch copied through. */
  lemma StripKeepsRunStep(s: string, i: nat, j: nat)
    requires i < j <= |s| && MatchAt(s, i).None?
    requires StripFrom(s, i + 1) == s[i + 1..j] + StripFrom(s, j)
    ensures StripFrom(s, i) == s[i..j] + StripFrom(s, j)
  {
    StripKeepsChar(s, i);
    SliceCons(s, i, j);
    ConsThenRest(StripFrom(s, i), s[i], StripFrom(s, i + 1), s[i + 1..j], StripFrom(s, j), s[i..j]);
  }

  /** A slice is its first character followed by the rest. */
  lemma SliceCons(s: string, i: nat, j: nat)
    requires i < j <= |s|
    ensures [s[i]] + s[i + 1..j] == s[i..j]
  {
    assert ([s[i]] + s[i + 1..j])[0] == s[i..j][0];
  }

  /** A suffix is a slice followed by the suffix after it. */
  lemma SliceSplit(s: string, i: nat, k: nat)
    requires i <= k <= |s|
    ensures s[i..] == s[i..k] + s[k..]
  {
  }

  /** `x` is `c` then `t`, and `t` is `a` then `r`: so `x` is `[c] + a`
      then `r`. */
  lemma ConsThenRest(x: string, c: char, t: string, a: string, r: string, b: string)
    requires x == [c] + t && t == a + r && [c] + a == b
    ensures x == b + r
  {
    assert [c] + (a + r) == ([c] + a) + r;
  }

  /** A stretch where the pattern matches nowhere is kept as it is. */
  lemma {:induction false} StripKeepsRun(s: string, i: nat, j: nat)
    requires i <= j <= |s|
    requires forall p :: i <= p < j ==> MatchAt(s, p).None?
    ensures StripFrom(s, i) == s[i..j] + StripFrom(s, j)
    decreases j - i
  {
    if i < j {
      StripKeepsRun(s, i + 1, j);
      StripKeepsRunStep(s, i, j);
    }
  }

  /** Every match ends with the line break of its final group. */
  lemma MatchEndsWithBreak(s: string, p: nat)
    requires MatchAt(s, p).Some?
    ensures IsLineTerminator(s[MatchAt(s, p).value - 1])
  {
    var e := MatchAt(s, p).value;
    assert ImportMatch(s, p, e);
    var q: nat :| FirstTerminatorFrom(s, p + |ImportKeyword|, q) && e == q + 1 + BreakLength(s, q + 1);
  }

  /** No match starts on a last line that holds no line terminator. */
  lemma NoMatchInLastLine(s: string, p: nat, m: nat)
    requires p <= m < |s|
    requires forall k :: p <= k < |s| ==> !IsLineTerminator(s[k])
    ensures MatchAt(s, m).None?
  {
    if MatchAt(s, m).Some? {
      MatchEndsWithBreak(s, m);
    }
  }

  /** Whatever comes before it, a last line without a line terminator comes
      through stripping intact: an `import` there is never removed, since
      the pattern needs a line break after its `;`. */
  lemma {:induction false} StripKeepsLastLine(s: string, p: nat, i: nat)
    requires i <= p <= |s|
    requires forall k :: p <= k < |s| ==> !IsLineTerminator(s[k])
    ensures exists pre :: StripFrom(s, i) == pre + s[p..]
    decreases p - i
  {
    if i == p {
      forall m | p <= m < |s|
        ensures MatchAt(s, m).None?
      {
        NoMatchInLastLine(s, p, m);
      }
      StripKeepsRun(s, p, |s|);
      assert StripFrom(s, i) == "" + s[p..];
    } else {
      match MatchAt(s, i)
      case Some(e) =>
        MatchEndsWithBreak(s, i);
        StripKeepsLastLine(s, p, e);
        var pre :| StripFrom(s, e) == pre + s[p..];
        assert StripFrom(s, i) == pre + s[p..];
      case None =>
        StripKeepsLastLine(s, p, i + 1);
        var pre :| StripFrom(s, i + 1) == pre + s[p..];
        StripKeepsChar(s, i);
        ConsThenRest(StripFrom(s, i), s[i], StripFrom(s, i + 1), pre, s[p..], [s[i]] + pre);
    }
  }

  /** A match is dropped whole, and the scan resumes after it. */
  lemma StripSkipsMatch(s: string, i: nat, e: nat)
    requires i < |s| && MatchAt(s, i) == Some(e)
    ensures StripFrom(s, i) == StripFrom(s, e)
  {
  }

  /** The example below, first pass. */
  lemma StripFirstPass(s: string)
    requires s == "impimport x;\nort y;\n"
    ensures StripFrom(s, 0) == "import y;\n"
  {
    SpliceHead(s);
    StripKeepsRun(s, 0, 3);
    SpliceMatch(s);
    StripSkipsMatch(s, 3, 13);
    SpliceTail(s);
    calc {
      StripFrom(s, 0);
      s[0..3] + StripFrom(s, 13);
      { assert s[0..3] == "imp"; }
      "imp" + "ort y;\n";
    }
  }

  /** Stripping is not idempotent: removing a statement can splice the text
      around it into a new one, which a second pass then removes. */
  lemma StripImportsNotIdempotent()
    ensures StripImports("impimport x;\nort y;\n") == "import y;\n"
    ensures StripImports("import y;\n") == ""
  {
    StripFirstPass("impimport x;\nort y;\n");
    StripSecondPass("import y;\n");
  }
}

=== FILE: js_text.dfy ===
/** Character classes and substring tests of JavaScript regular expressions,
    as used by the two source rewrites of the preview pipeline. A JavaScript
    string is a sequence of UTF-16 code units; the model uses `char`, which
    agrees on every character the classes below mention. */
module JsText {

  /** The characters the regular-expression `.` refuses to match when the
      `s` flag is absent: LF, CR, LINE SEPARATOR and PARAGRAPH SEPARATOR.
      Every one of them is also in `\s`. */
  predicate IsLineTerminator(c: char)
    ensures IsLineTerminator(c) ==> IsSpace(c)
  {
    c == '\n' || c == '\r' || c == '\U{2028}' || c == '\U{2029}'
  }

  /** The class `\s`: the ECMAScript WhiteSpace and LineTerminator characters. */
  predicate IsSpace(c: char) {
    || c == '\t' || c == '\n' || c == '\U{000B}' || c == '\U{000C}' || c == '\r'
    || c == ' ' || c == '\U{00A0}' || c == '\U{1680}'
    || ('\U{2000}' <= c <= '\U{200A}')
    || c == '\U{2028}' || c == '\U{2029}' || c == '\U{202F}' || c == '\U{205F}'
    || c == '\U{3000}' || c == '\U{FEFF}'
  }

  /** The class `\w` without the `u` and `i` flags: `[A-Za-z0-9_]`. No word
      character ends a line. */
  predicate IsWordChar(c: char)
    ensures IsWordChar(c) ==> !IsLineTerminator(c)
  {
    ('A' <= c <= 'Z') || ('a' <= c <= 'z') || ('0' <= c <= '9') || c == '_'
  }

  /** No character is both in `\w` and in `\s`. */
  lemma WordCharIsNotSpace(c: char)
    requires IsWordChar(c)
    ensures !IsSpace(c)
  {
  }

  /** `w` occurs in `s` at position `i`. */
  predicate StartsWithAt(s: string, i: nat, w: string) {
    i + |w| <= |s| && s[i..i + |w|] == w
  }
}

=== FILE: preview_session.dfy ===
/** When the preview pipeline runs (src/components/CodePreview.tsx, line 99):
    the effect re-runs whenever `code` or `activeHook` differs from the
    previous render. `code` is compared by identity, and every `updateCode`
    creates a new object, so every edit triggers a run, whichever topic or
    file it touches and whether or not the text changed.

    A session replays the events the rest of the interface produces (editor
    changes, topic selection, file selection) against the code store and the
    state of one mounted preview, running the pipeline whenever its
    dependencies change. The property the script is read through is a
    parameter: `.jsx` as the source reads it, or `.js` as the store defines
    it. Mounting and unmounting by the layout are modelled in `Workspace`. */
module PreviewSession {
  import opened Wrappers
  import opened CodeContext
  import CodeEditor
  import opened CodePreview

  /** The effect's dependency list `[code, activeHook]`. */
  datatype Deps = Deps(code: nat, activeHook: Topic)

  function DepsOf(ctx: Context): Deps {
    Deps(ctx.revision, ctx.activeHook)
  }

  /** React re-runs the effect when some dependency changed: a new `code`
      object (compared by identity, not by content) or another topic. */
  function EffectFires(before: Context, after: Context): (fires: bool)
    ensures fires <==> before.revision != after.revision || before.activeHook != after.activeHook
  {
    DepsOf(before) != DepsOf(after)
  }

  /** An event from the rest of the interface. */
  datatype Event =
    | EditorChange(value: Option<string>)   // the editor widget's `onChange`
    | SelectTopic(topic: Topic)             // a topic tab's `setActiveHook`
    | SelectFile(file: FileKind)            // a file tab's `setActiveFile`
    | RenderThrow(thrown: Thrown)           // the rendered output throws while React renders it

  /** The store after an event. */
  function Apply(ctx: Context, ev: Event): (r: Context)
    ensures ev.EditorChange? && ev.value.Some? ==>
      && CodeEditor.DisplayedValue(r) == ev.value.value
      && r.activeHook == ctx.activeHook && r.activeFile == ctx.activeFile
    ensures ev.SelectTopic? ==>
      r.activeHook == ev.topic && r.activeFile == ctx.activeFile && r.code == ctx.code && r.revision == ctx.revision
    ensures ev.SelectFile? ==>
      r.activeFile == ev.file && r.activeHook == ctx.activeHook && r.code == ctx.code && r.revision == ctx.revision
    ensures ev.RenderThrow? || (ev.EditorChange? && ev.value.None?) ==> r == ctx
  {
    match ev
    case EditorChange(value) => CodeEditor.HandleEditorChange(ctx, value)
    case SelectTopic(t) => SetActiveHook(ctx, t)
    case SelectFile(f) => SetActiveFile(ctx, f)
    case RenderThrow(_) => ctx
  }

  /** The store, the `(error, renderedOutput)` state of a mounted preview, and
      the state of the error boundary inside it (kept at `BoundaryInitial`
      while the error panel has it out of the tree). */
  datatype Session = Session(ctx: Context, preview: Preview, boundary: Boundary)

  /** The preview a run over the current store gives from the initial state. */
  function Fresh(ctx: Context, property: ScriptProperty, transform: Transformer, evaluate: Evaluator): Preview {
    RunPipeline(PreviewInitial, Entry(ctx.code, ctx.activeHook), property, transform, evaluate)
  }

  /** A run of the pipeline over the active topic's stored pair, reading the
      script through `property` (`PropertyAsWritten` for the source as it
      stands, `PropertyIntended` for the corrected reading). Its outcome does
      not depend on the previous state. */
  function Run(ctx: Context, prev: Preview, property: ScriptProperty, transform: Transformer, evaluate: Evaluator): (r: Preview)
    ensures r == Fresh(ctx, property, transform, evaluate)
  {
    RunForgetsPrevious(prev, PreviewInitial, Entry(ctx.code, ctx.activeHook), property, transform, evaluate);
    RunPipeline(prev, Entry(ctx.code, ctx.activeHook), property, transform, evaluate)
  }

  /** One event: update the store, then run the pipeline if the effect fires.
      A render throw reaches the boundary; any other event leaves it alone,
      unless the error panel now takes its place. */
  function Step(s: Session, ev: Event, property: ScriptProperty, transform: Transformer, evaluate: Evaluator): (r: Session)
    ensures r.ctx == Apply(s.ctx, ev)
    ensures EffectFires(s.ctx, r.ctx) ==> r.preview == Run(r.ctx, s.preview, property, transform, evaluate)
    ensures !EffectFires(s.ctx, r.ctx) ==> r.preview == s.preview
    ensures ev.RenderThrow? ==> r.boundary == RenderThrows(s.boundary, s.preview, ev.thrown)
    ensures !ev.RenderThrow? ==> r.boundary == SettleBoundary(s.boundary, r.preview)
  {
    var ctx := Apply(s.ctx, ev);
    var preview := if EffectFires(s.ctx, ctx) then Run(ctx, s.preview, property, transform, evaluate) else s.preview;
    var boundary :=
      if ev.RenderThrow? then RenderThrows(s.boundary, s.preview, ev.thrown)
      else SettleBoundary(s.boundary, preview);
    Session(ctx, preview, boundary)
  }

  /** Mounting: the initial store, and the effect's first run from the
      initial `(null, null)` state. */
  function Mount(property: ScriptProperty, transform: Transformer, evaluate: Evaluator): (s: Session)
    ensures s.ctx == InitialContext()
    ensures s.preview == Fresh(s.ctx, property, transform, evaluate)
    ensures !s.boundary.hasError
  {
    var ctx := InitialContext();
    Session(ctx, Run(ctx, PreviewInitial, property, transform, evaluate), BoundaryInitial)
  }

  /** The session after a sequence of events. */
  function Replay(s: Session, evs: seq<Event>, property: ScriptProperty, transform: Transformer, evaluate: Evaluator): Session
    decreases |evs|
  {
    if |evs| == 0 then s else Replay(Step(s, evs[0], property, transform, evaluate), evs[1..], property, transform, evaluate)
  }

  /** The number of pipeline runs a sequence of events triggers. */
  function RunCount(s: Session, evs: seq<Event>, property: ScriptProperty, transform: Transformer, evaluate: Evaluator): nat
    decreases |evs|
  {
    if |evs| == 0 then 0
    else
      var next := Step(s, evs[0], property, transform, evaluate);
      (if EffectFires(s.ctx, next.ctx) then 1 else 0) + RunCount(next, evs[1..], property, transform, evaluate)
  }

  /** Every defined edit, topic switch to another topic, or nothing else fires
      the effect: edits always do (even of the stylesheet, even with the text
      already stored), a topic switch does exactly when the topic changes, an
      `undefined` edit, a file switch and a render throw never do. */
  lemma EventFires(ctx: Context, ev: Event)
    ensures ev.EditorChange? ==> (EffectFires(ctx, Apply(ctx, ev)) <==> ev.value.Some?)
    ensures ev.SelectTopic? ==> (EffectFires(ctx, Apply(ctx, ev)) <==> ev.topic != ctx.activeHook)
    ensures ev.SelectFile? ==> !EffectFires(ctx, Apply(ctx, ev))
    ensures ev.RenderThrow? ==> !EffectFires(ctx, Apply(ctx, ev))
  {
  }

  /** One event keeps the preview equal to a fresh run over the store. */
  lemma StepKeepsFresh(s: Session, ev: Event, property: ScriptProperty, transform: Transformer, evaluate: Evaluator)
    requires s.preview == Fresh(s.ctx, property, transform, evaluate)
    ensures var next := Step(s, ev, property, transform, evaluate);
            next.preview == Fresh(next.ctx, property, transform, evaluate)
  {
    var ctx := Apply(s.ctx, ev);
    if !EffectFires(s.ctx, ctx) {
      assert ctx.code == s.ctx.code && ctx.activeHook == s.ctx.activeHook;
    }
  }

  /** No state survives a run: after any sequence of events, the preview is
      exactly what one fresh run over the current store produces, whatever
      earlier runs rendered or threw. */
  lemma {:induction false} PreviewAlwaysFresh(s: Session, evs: seq<Event>, property: ScriptProperty, transform: Transformer, evaluate: Evaluator)
    requires s.preview == Fresh(s.ctx, property, transform, evaluate)
    ensures var last := Replay(s, evs, property, transform, evaluate);
            last.preview == Fresh(last.ctx, property, transform, evaluate)
    decreases |evs|
  {
    if |evs| > 0 {
      StepKeepsFresh(s, evs[0], property, transform, evaluate);
      PreviewAlwaysFresh(Step(s, evs[0], property, transform, evaluate), evs[1..], property, transform, evaluate);
    }
  }

  /** The mounted session starts fresh, so every later preview is fresh. */
  lemma SessionPreviewIsFresh(evs: seq<Event>, property: ScriptProperty, transform: Transformer, evaluate: Evaluator)
    ensures var s := Replay(Mount(property, transform, evaluate), evs, property, transform, evaluate);
            s.preview == Fresh(s.ctx, property, transform, evaluate)
  {
    PreviewAlwaysFresh(Mount(property, transform, evaluate), evs, property, transform, evaluate);
  }

  /** As written (reading `.jsx`), the mounted preview shows the
      `undefined.replace` error and no output after every sequence of events,
      whatever the user types. */
  lemma SessionAsWrittenAlwaysFails(evs: seq<Event>, transform: Transformer, evaluate: Evaluator)
    ensures Replay(Mount(PropertyAsWritten, transform, evaluate), evs, PropertyAsWritten, transform, evaluate).preview
         == Preview(Some(UndefinedReplaceMessage), None)
  {
    SessionPreviewIsFresh(evs, PropertyAsWritten, transform, evaluate);
    var s := Replay(Mount(PropertyAsWritten, transform, evaluate), evs, PropertyAsWritten, transform, evaluate);
    assert Fresh(s.ctx, PropertyAsWritten, transform, evaluate)
        == RunPipelineAsWritten(PreviewInitial, Entry(s.ctx.code, s.ctx.activeHook), transform, evaluate);
  }

  /** There is no debouncing: a sequence of defined edits triggers exactly one
      pipeline run per edit. */
  lemma {:induction false} EveryEditRuns(s: Session, evs: seq<Event>, property: ScriptProperty, transform: Transformer, evaluate: Evaluator)
    requires forall k :: 0 <= k < |evs| ==> evs[k].EditorChange? && evs[k].value.Some?
    ensures RunCount(s, evs, property, transform, evaluate) == |evs|
    decreases |evs|
  {
    if |evs| > 0 {
      EventFires(s.ctx, evs[0]);
      EveryEditRuns(Step(s, evs[0], property, transform, evaluate), evs[1..], property, transform, evaluate);
    }
  }

  /** Editing only the active topic's stylesheet still re-runs the pipeline,
      and the run yields what the unchanged script yields, under either
      reading of the script. `evaluate` is a function of the text, so the
      `Example` it returns is the same value; the identity of the closure
      each `new Function` call creates is not modelled. */
  lemma StylesheetEditReruns(s: Session, text: string, property: ScriptProperty, transform: Transformer, evaluate: Evaluator)
    requires s.ctx.activeFile == Css
    requires s.preview == Fresh(s.ctx, property, transform, evaluate)
    ensures var next := Step(s, EditorChange(Some(text)), property, transform, evaluate);
      && EffectFires(s.ctx, next.ctx)
      && next.ctx.Cell(s.ctx.activeHook, Css) == text
      && next.preview == s.preview
  {
    var next := Step(s, EditorChange(Some(text)), property, transform, evaluate);
    assert Entry(next.ctx.code, next.ctx.activeHook).js == Entry(s.ctx.code, s.ctx.activeHook).js by {
      assert next.ctx.Cell(s.ctx.activeHook, Other(Css)) == s.ctx.Cell(s.ctx.activeHook, Other(Css));
    }
    RunReadsOnlyScript(PreviewInitial, PreviewInitial, Entry(next.ctx.code, next.ctx.activeHook),
                       Entry(s.ctx.code, s.ctx.activeHook), property, transform, evaluate);
  }

  /** Switching to another topic always replaces the outcome by a fresh run
      over that topic's script, even when the previous run failed; a latched
      boundary stays latched unless that run shows the error panel. */
  lemma TopicSwitchRerunsFresh(s: Session, t: Topic, property: ScriptProperty, transform: Transformer, evaluate: Evaluator)
    requires t != s.ctx.activeHook
    ensures var next := Step(s, SelectTopic(t), property, transform, evaluate);
      && next.ctx.activeHook == t
      && next.preview == Fresh(next.ctx, property, transform, evaluate)
      && (next.boundary.hasError <==> s.boundary.hasError && !ShowsError(next.preview))
  {
  }

  /** The preview panel of a session: the view selected from its preview
      state and the active topic's stylesheet. */
  function PanelOf(s: Session): (v: Panel)
    ensures v.Stage? ==> v.css == s.ctx.Cell(s.ctx.activeHook, Css)
  {
    SelectView(s.preview, Entry(s.ctx.code, s.ctx.activeHook).css)
  }

  /** What the preview card of a session shows. */
  function ScreenOf(s: Session): (sc: Screen)
    ensures sc.ErrorScreen? <==> ShowsError(s.preview)
    ensures sc.StageScreen? ==>
      && sc.css == s.ctx.Cell(s.ctx.activeHook, Css)
      && (sc.shown.Fallback? <==> s.boundary.hasError)
  {
    Display(s.preview, s.boundary, Entry(s.ctx.code, s.ctx.activeHook).css)
  }

  /** Apart from a render throw, an event leaves the boundary latched exactly
      when it was latched and the error panel does not replace it: runs,
      topic switches and edits do not reset it. */
  lemma BoundaryAcrossStep(s: Session, ev: Event, property: ScriptProperty, transform: Transformer, evaluate: Evaluator)
    requires !ev.RenderThrow?
    ensures var next := Step(s, ev, property, transform, evaluate);
      next.boundary.hasError <==> s.boundary.hasError && !ShowsError(next.preview)
  {
  }

  /** A latched boundary outlives every run that does not show the error
      panel: the card keeps showing the old fallback, whatever the new run
      rendered. */
  lemma FallbackSurvivesRuns(s: Session, ev: Event, property: ScriptProperty, transform: Transformer, evaluate: Evaluator)
    requires s.boundary.hasError && !ev.RenderThrow?
    requires !ShowsError(Step(s, ev, property, transform, evaluate).preview)
    ensures var next := Step(s, ev, property, transform, evaluate);
      && next.boundary == s.boundary
      && ScreenOf(next) == StageScreen(Entry(next.ctx.code, next.ctx.activeHook).css, Fallback(FallbackMessage(s.boundary.error)))
  {
  }

  /** Reading `.js`: after a render throw has latched the boundary, typing a
      script that compiles and defines `Example` gives a run that renders it,
      yet the card still shows the old fallback. */
  lemma FallbackOutlivesFix(s: Session, text: string, code: Option<string>, f: FunctionValue, transform: Transformer, evaluate: Evaluator)
    requires s.boundary.hasError && s.ctx.activeFile == Js
    requires transform(Normalize(text)) == Success(code)
    requires evaluate(Capabilities, FunctionBody(code.GetOr(""))) == Success(Some(f))
    ensures var next := Step(s, EditorChange(Some(text)), PropertyIntended, transform, evaluate);
      && next.preview == Preview(None, Some(CreateElement(f)))
      && ScreenOf(next).StageScreen?
      && ScreenOf(next).shown == Fallback(FallbackMessage(s.boundary.error))
  {
    var next := Step(s, EditorChange(Some(text)), PropertyIntended, transform, evaluate);
    EventFires(s.ctx, EditorChange(Some(text)));
    assert Entry(next.ctx.code, next.ctx.activeHook).js == text by {
      assert CodeEditor.DisplayedValue(next.ctx) == text;
    }
    IntendedRunRenders(PreviewInitial, Entry(next.ctx.code, next.ctx.activeHook), transform, evaluate, code, f);
  }

  /** A run whose error panel shows takes the boundary out of the tree: the
      latch is gone, and the next boundary starts without an error. */
  lemma ErrorPanelResetsBoundary(s: Session, ev: Event, property: ScriptProperty, transform: Transformer, evaluate: Evaluator)
    requires !ev.RenderThrow?
    requires ShowsError(Step(s, ev, property, transform, evaluate).preview)
    ensures var next := Step(s, ev, property, transform, evaluate);
      && next.boundary == BoundaryInitial
      && ScreenOf(next) == ErrorScreen(next.preview.error.value)
  {
  }

  /** Only a render throw latches the boundary: from an unlatched boundary,
      a latched one after any sequence of events means one of them was a
      render throw. */
  lemma {:induction false} LatchNeedsRenderThrow(s: Session, evs: seq<Event>, property: ScriptProperty, transform: Transformer, evaluate: Evaluator)
    requires !s.boundary.hasError
    ensures Replay(s, evs, property, transform, evaluate).boundary.hasError ==>
      exists k :: 0 <= k < |evs| && evs[k].RenderThrow?
    decreases |evs|
  {
    if |evs| > 0 {
      var next := Step(s, evs[0], property, transform, evaluate);
      if evs[0].RenderThrow? {
        assert evs[0].RenderThrow?;
      } else {
        LatchNeedsRenderThrow(next, evs[1..], property, transform, evaluate);
        if Replay(s, evs, property, transform, evaluate).boundary.hasError {
          var k :| 0 <= k < |evs[1..]| && evs[1..][k].RenderThrow?;
          assert evs[k + 1].RenderThrow?;
        }
      }
    }
  }

  /** As written (reading `.jsx`) nothing is ever rendered, so nothing can
      throw while rendering: the boundary never latches, and the card shows
      the error panel after every sequence of events. */
  lemma {:induction false} AsWrittenBoundaryNeverLatches(s: Session, evs: seq<Event>, transform: Transformer, evaluate: Evaluator)
    requires s.preview == Preview(Some(UndefinedReplaceMessage), None) && s.boundary == BoundaryInitial
    ensures var last := Replay(s, evs, PropertyAsWritten, transform, evaluate);
      && last.boundary == BoundaryInitial
      && ScreenOf(last) == ErrorScreen(UndefinedReplaceMessage)
    decreases |evs|
  {
    if |evs| > 0 {
      var next := Step(s, evs[0], PropertyAsWritten, transform, evaluate);
      if EffectFires(s.ctx, next.ctx) {
        assert next.preview == RunPipelineAsWritten(s.preview, Entry(next.ctx.code, next.ctx.activeHook), transform, evaluate);
      }
      AsWrittenBoundaryNeverLatches(next, evs[1..], transform, evaluate);
    }
  }
}

=== FILE: workspace.dfy ===
/** The dashboard with the preview in it (src/components/Dashboard.tsx, lines
    58-98): the layout decides whether `CodePreview` is mounted at all, and
    where. On a mobile width it is mounted only while the preview pane is
    shown; on a wide window it sits in the second pane of the split. React
    keeps one instance while that place in the tree stays the same; leaving it
    discards the instance with its `(error, renderedOutput)` state and its
    error boundary, and a new instance starts from `(null, null)` with a
    boundary without an error, and runs the effect once on mount. */
module Workspace {
  import opened Wrappers
  import opened CodeContext
  import opened CodePreview
  import opened PreviewSession
  import opened Dashboard

  /** Where `CodePreview` is in the tree: nowhere (the mobile editor is
      shown), the mobile preview pane, or the desktop split. */
  datatype Slot = Hidden | MobilePane | SplitPane

  function SlotOf(l: Layout): (slot: Slot)
    ensures slot.Hidden? <==> ChooseView(l).MobileEditor?
    ensures slot.MobilePane? <==> ChooseView(l).MobilePreview?
    ensures slot.SplitPane? <==> ChooseView(l).SplitPanes?
  {
    match ChooseView(l)
    case MobileEditor(_, _) => Hidden
    case MobilePreview(_, _) => MobilePane
    case SplitPanes(_) => SplitPane
  }

  /** What the user can do: anything the store reacts to, resize the
      window, drag the split, or press a mobile button. */
  datatype Input =
    | Store(ev: Event)
    | Resize(width: int)
    | DragEnd(sizes: seq<int>)
    | EditorButton
    | PreviewButton

  /** The mobile buttons exist only on a mobile width, and the split only on
      a wide one. The topic tabs are always shown; the editor (its changes and
      its file tabs) is not in the mobile preview pane; and only a mounted
      preview can throw while rendering. */
  predicate Available(l: Layout, inp: Input)
    ensures inp.DragEnd? ==> (Available(l, inp) <==> ChooseView(l).SplitPanes?)
    ensures inp.EditorButton? || inp.PreviewButton? ==> (Available(l, inp) <==> !ChooseView(l).SplitPanes?)
    ensures inp.Resize? ==> Available(l, inp)
    ensures inp.Store? ==> (Available(l, inp) <==> EventAvailable(l, inp.ev))
  {
    match inp
    case Store(ev) => EventAvailable(l, ev)
    case Resize(_) => true
    case DragEnd(_) => !l.isMobile
    case EditorButton => l.isMobile
    case PreviewButton => l.isMobile
  }

  /** A store event can happen exactly when the widget it comes from is in
      the tree: the editor for changes and file tabs, the rendered preview
      for a render throw, and the topic tabs always. */
  predicate EventAvailable(l: Layout, ev: Event)
    ensures ev.EditorChange? || ev.SelectFile? ==>
      (EventAvailable(l, ev) <==> ChooseView(l).MobileEditor? || ChooseView(l).SplitPanes?)
    ensures ev.RenderThrow? ==>
      (EventAvailable(l, ev) <==> ChooseView(l).MobilePreview? || ChooseView(l).SplitPanes?)
    ensures ev.SelectTopic? ==> EventAvailable(l, ev)
  {
    match ev
    case EditorChange(_) => !SlotOf(l).MobilePane?
    case SelectFile(_) => !SlotOf(l).MobilePane?
    case SelectTopic(_) => true
    case RenderThrow(_) => !SlotOf(l).Hidden?
  }

  /** The layout after an input; an input the current layout does not offer
      changes nothing. */
  function NextLayout(l: Layout, inp: Input): (r: Layout)
    ensures !Available(l, inp) || inp.Store? ==> r == l
  {
    if !Available(l, inp) then l
    else
      match inp
      case Store(_) => l
      case Resize(width) => HandleResize(l, width)
      case DragEnd(sizes) => HandleDragEnd(l, sizes)
      case EditorButton => PressEditor(l)
      case PreviewButton => PressPreview(l)
  }

  /** The store after an input: only store events change it. */
  function NextContext(ctx: Context, inp: Input): Context {
    if inp.Store? then Apply(ctx, inp.ev) else ctx
  }

  /** The layout, the store, the state of the mounted preview instance
      (`None` while none is mounted), and the state of its error boundary
      (`BoundaryInitial` while there is none). */
  datatype Workspace = Workspace(layout: Layout, ctx: Context, preview: Option<Preview>, boundary: Boundary)

  /** Whether an input runs the pipeline: a new instance is mounted, or the
      mounted one sees its dependencies change. */
  function RunsPipeline(w: Workspace, inp: Input): (runs: bool)
    ensures runs ==> Available(w.layout, inp) && !SlotOf(NextLayout(w.layout, inp)).Hidden?
    ensures SlotOf(w.layout).Hidden? && inp.Store? ==> !runs
  {
    var after := SlotOf(NextLayout(w.layout, inp));
    && Available(w.layout, inp)
    && !after.Hidden?
    && (SlotOf(w.layout) != after || EffectFires(w.ctx, NextContext(w.ctx, inp)))
  }

  /** One input: an input the layout does not offer changes nothing;
      otherwise the layout and the store are updated, an instance left behind
      is discarded, a new instance runs from the initial state with a new
      boundary, and the kept instance runs when its dependencies changed. */
  function WorkspaceStep(w: Workspace, inp: Input, property: ScriptProperty, transform: Transformer, evaluate: Evaluator): (r: Workspace)
    ensures !Available(w.layout, inp) ==> r == w
    ensures Available(w.layout, inp) ==> r.layout == NextLayout(w.layout, inp) && r.ctx == NextContext(w.ctx, inp)
    ensures Available(w.layout, inp) && SlotOf(r.layout).Hidden? ==> r.preview.None?
    ensures RunsPipeline(w, inp) ==> r.preview == Some(Fresh(r.ctx, property, transform, evaluate))
    ensures Available(w.layout, inp) && !SlotOf(r.layout).Hidden? && !RunsPipeline(w, inp) ==> r.preview == w.preview
    ensures Available(w.layout, inp) && SlotOf(w.layout) != SlotOf(r.layout) ==> r.boundary == BoundaryInitial
  {
    if !Available(w.layout, inp) then w
    else
      var layout := NextLayout(w.layout, inp);
      var ctx := NextContext(w.ctx, inp);
      var before := SlotOf(w.layout);
      var after := SlotOf(layout);
      if after.Hidden? then Workspace(layout, ctx, None, BoundaryInitial)
      else if before != after then Workspace(layout, ctx, Some(Run(ctx, PreviewInitial, property, transform, evaluate)), BoundaryInitial)
      else
        var prev := w.preview.GetOr(PreviewInitial);
        var preview := if EffectFires(w.ctx, ctx) then Some(Run(ctx, prev, property, transform, evaluate)) else w.preview;
        var boundary :=
          if inp.Store? && inp.ev.RenderThrow? then RenderThrows(w.boundary, prev, inp.ev.thrown)
          else SettleBoundary(w.boundary, preview.GetOr(PreviewInitial));
        Workspace(layout, ctx, preview, boundary)
  }

  /** The dashboard on mount at window width `width`. */
  function Open(width: int, property: ScriptProperty, transform: Transformer, evaluate: Evaluator): (w: Workspace)
    ensures w.layout == InitialLayout(width) && w.ctx == InitialContext()
    ensures w.preview.Some? <==> width >= MobileBreakpoint
    ensures w.preview.Some? ==> w.preview.value == Fresh(w.ctx, property, transform, evaluate)
  {
    var layout := InitialLayout(width);
    var ctx := InitialContext();
    Workspace(layout, ctx, if SlotOf(layout).Hidden? then None else Some(Run(ctx, PreviewInitial, property, transform, evaluate)), BoundaryInitial)
  }

  /** A preview instance exists exactly while the layout shows one, and its
      state is what one fresh run over the current store gives; there is no
      latched boundary while no instance, or the error panel, is shown. */
  ghost predicate Consistent(w: Workspace, property: ScriptProperty, transform: Transformer, evaluate: Evaluator) {
    && (w.preview.Some? <==> !SlotOf(w.layout).Hidden?)
    && (w.preview.Some? ==> w.preview.value == Fresh(w.ctx, property, transform, evaluate))
    && (w.preview.None? || ShowsError(w.preview.value) ==> w.boundary == BoundaryInitial)
  }

  /** Every step keeps the workspace consistent. */
  lemma StepKeepsConsistent(w: Workspace, inp: Input, property: ScriptProperty, transform: Transformer, evaluate: Evaluator)
    requires Consistent(w, property, transform, evaluate)
    ensures Consistent(WorkspaceStep(w, inp, property, transform, evaluate), property, transform, evaluate)
  {
    var r := WorkspaceStep(w, inp, property, transform, evaluate);
    if r.preview.Some? && !RunsPipeline(w, inp) {
      assert SlotOf(w.layout) == SlotOf(r.layout);
      assert !EffectFires(w.ctx, r.ctx);
      assert r.ctx.code == w.ctx.code && r.ctx.activeHook == w.ctx.activeHook;
    }
  }

  /** The workspace after a sequence of inputs. */
  function ReplayInputs(w: Workspace, inps: seq<Input>, property: ScriptProperty, transform: Transformer, evaluate: Evaluator): Workspace
    decreases |inps|
  {
    if |inps| == 0 then w
    else ReplayInputs(WorkspaceStep(w, inps[0], property, transform, evaluate), inps[1..], property, transform, evaluate)
  }

  /** The number of pipeline runs a sequence of inputs triggers. */
  function PipelineRuns(w: Workspace, inps: seq<Input>, property: ScriptProperty, transform: Transformer, evaluate: Evaluator): nat
    decreases |inps|
  {
    if |inps| == 0 then 0
    else
      (if RunsPipeline(w, inps[0]) then 1 else 0)
      + PipelineRuns(WorkspaceStep(w, inps[0], property, transform, evaluate), inps[1..], property, transform, evaluate)
  }

  /** From opening the dashboard on, whatever is typed, resized, dragged or
      pressed, the preview is mounted exactly while the layout shows it and
      then holds a fresh run over the current store. */
  lemma {:induction false} WorkspaceStaysConsistent(w: Workspace, inps: seq<Input>, property: ScriptProperty, transform: Transformer, evaluate: Evaluator)
    requires Consistent(w, property, transform, evaluate)
    ensures Consistent(ReplayInputs(w, inps, property, transform, evaluate), property, transform, evaluate)
    decreases |inps|
  {
    if |inps| > 0 {
      StepKeepsConsistent(w, inps[0], property, transform, evaluate);
      WorkspaceStaysConsistent(WorkspaceStep(w, inps[0], property, transform, evaluate), inps[1..], property, transform, evaluate);
    }
  }

  /** Opening the dashboard gives a consistent workspace. */
  lemma OpenIsConsistent(width: int, property: ScriptProperty, transform: Transformer, evaluate: Evaluator)
    ensures Consistent(Open(width, property, transform, evaluate), property, transform, evaluate)
  {
  }

  /** While the mobile editor is shown, edits and topic switches run the
      pipeline zero times and leave no preview instance; a render throw
      cannot happen there, since nothing is rendered, and changes nothing. */
  lemma {:induction false} HiddenEditsNeverRun(w: Workspace, evs: seq<Event>, property: ScriptProperty, transform: Transformer, evaluate: Evaluator)
    requires SlotOf(w.layout).Hidden?
    ensures var inps := seq(|evs|, k requires 0 <= k < |evs| => Store(evs[k]));
      && PipelineRuns(w, inps, property, transform, evaluate) == 0
      && ReplayInputs(w, inps, property, transform, evaluate).layout == w.layout
      && (w.preview.None? || (exists k :: 0 <= k < |evs| && !evs[k].RenderThrow?) ==>
            ReplayInputs(w, inps, property, transform, evaluate).preview.None?)
    decreases |evs|
  {
    var inps := seq(|evs|, k requires 0 <= k < |evs| => Store(evs[k]));
    if |evs| > 0 {
      var next := WorkspaceStep(w, inps[0], property, transform, evaluate);
      assert next.layout == w.layout;
      assert !evs[0].RenderThrow? ==> next.preview.None?;
      assert evs[0].RenderThrow? ==> next == w;
      HiddenEditsNeverRun(next, evs[1..], property, transform, evaluate);
      assert inps[1..] == seq(|evs[1..]|, k requires 0 <= k < |evs[1..]| => Store(evs[1..][k]));
      if exists k :: 0 <= k < |evs| && !evs[k].RenderThrow? {
        var k :| 0 <= k < |evs| && !evs[k].RenderThrow?;
        if k > 0 && evs[0].RenderThrow? {
          assert !evs[1..][k - 1].RenderThrow?;
        }
      }
    }
  }

  /** In the split, every defined edit runs the pipeline once, on the kept
      instance. */
  lemma ShownEditRuns(w: Workspace, text: string, property: ScriptProperty, transform: Transformer, evaluate: Evaluator)
    requires SlotOf(w.layout).SplitPane?
    ensures RunsPipeline(w, Store(EditorChange(Some(text))))
    ensures WorkspaceStep(w, Store(EditorChange(Some(text))), property, transform, evaluate).preview.Some?
  {
    EventFires(w.ctx, EditorChange(Some(text)));
  }

  /** The mobile preview pane has no editor: editor changes and file tabs
      cannot happen there, and change nothing. */
  lemma MobilePaneHasNoEditor(w: Workspace, ev: Event, property: ScriptProperty, transform: Transformer, evaluate: Evaluator)
    requires SlotOf(w.layout).MobilePane? && (ev.EditorChange? || ev.SelectFile?)
    ensures !RunsPipeline(w, Store(ev))
    ensures WorkspaceStep(w, Store(ev), property, transform, evaluate) == w
  {
  }

  /** In the split, a latched boundary outlives every edit and topic switch
      whose run does not show the error panel: the instance is kept, and so
      is its fallback. */
  lemma FallbackSurvivesInSplit(w: Workspace, ev: Event, property: ScriptProperty, transform: Transformer, evaluate: Evaluator)
    requires SlotOf(w.layout).SplitPane? && w.boundary.hasError && !ev.RenderThrow?
    ensures var r := WorkspaceStep(w, Store(ev), property, transform, evaluate);
      && SlotOf(r.layout).SplitPane?
      && (r.preview.Some? && !ShowsError(r.preview.value) ==> r.boundary == w.boundary)
  {
  }

  /** On a mobile width with the editor shown, pressing Preview mounts a new
      instance, which runs once from the initial state, even though the store
      did not change. */
  lemma PreviewButtonMounts(w: Workspace, property: ScriptProperty, transform: Transformer, evaluate: Evaluator)
    requires w.layout.isMobile && SlotOf(w.layout).Hidden?
    ensures RunsPipeline(w, PreviewButton)
    ensures var r := WorkspaceStep(w, PreviewButton, property, transform, evaluate);
      && SlotOf(r.layout) == MobilePane
      && r.ctx == w.ctx
      && r.preview == Some(Fresh(w.ctx, property, transform, evaluate))
      && r.boundary == BoundaryInitial
  {
  }

  /** A resize to a mobile width always shows the editor and discards the
      preview instance with its boundary, latched or not; a resize from a
      mobile width to a wide one mounts a new instance in the split, which
      runs once and starts with a boundary without an error. */
  lemma ResizeRemounts(w: Workspace, width: int, property: ScriptProperty, transform: Transformer, evaluate: Evaluator)
    ensures width < MobileBreakpoint ==>
      && WorkspaceStep(w, Resize(width), property, transform, evaluate).preview.None?
      && WorkspaceStep(w, Resize(width), property, transform, evaluate).boundary == BoundaryInitial
    ensures w.layout.isMobile && width >= MobileBreakpoint ==>
      && RunsPipeline(w, Resize(width))
      && WorkspaceStep(w, Resize(width), property, transform, evaluate).preview == Some(Fresh(w.ctx, property, transform, evaluate))
      && WorkspaceStep(w, Resize(width), property, transform, evaluate).boundary == BoundaryInitial
  {
    ResizeShowsEditorOnMobile(w.layout, width);
  }

  /** On a wide window, dragging the split keeps the instance and does not
      run the pipeline. */
  lemma DragKeepsInstance(w: Workspace, sizes: seq<int>, property: ScriptProperty, transform: Transformer, evaluate: Evaluator)
    requires !w.layout.isMobile
    ensures !RunsPipeline(w, DragEnd(sizes))
    ensures WorkspaceStep(w, DragEnd(sizes), property, transform, evaluate).preview == w.preview
  {
  }
}

=== FILE: wrappers.dfy ===
/** Failure-compatible wrappers used throughout the model: `Option` for a value
    that JavaScript may leave `undefined` or `null`, and `Result` for a step that
    either returns a value or throws. */
module Wrappers {

  datatype Option<+T> = None | Some(value: T) {

    /** The wrapped value, or `default` when there is none (JavaScript's `x || default`
        when the only falsy value `x` can take is the missing one). */
    function GetOr(default: T): T {
      match this
      case Some(v) => v
      case None => default
    }
  }

  /** A computation that returned `value` or threw `error`. */
  datatype Result<+R, +E> = Success(value: R) | Failure(error: E)
}
